=== FILE: README.md ===
# Library management: loan ledger, overdue scan, catalog and form state in Dafny

This project models the core of a small library management system. Its backend (Express and
MongoDB) keeps books, students, authors, publications and the loans ("issues") of books to
students, and it pushes overdue notices to browsers over socket.io. Its React frontend lists
issues, toggles navbar panels and edits contact-number lists in its forms. Each part is modelled
in the shape the code has:

- `FinePolicy` (fine.dfy): `calculateFine`, one unit per started day late, in integer
  milliseconds.
- `Models` (models.dfy): the `Book` and `Issue` records, their schema defaults and the
  validation a `save` performs (required fields, `price >= 0`).
- `Ledger` (ledger.dfy): issuing and returning books over an issue store (a sequence in
  insertion order) and a book store (a map keyed by `book_id`).
  - `IssueStep` and `ReturnStep` are the handlers as pure state transitions.
  - The class `LoanLedger` performs the same writes in the handlers' order. Its methods are
    proved equal to those transitions.
  - `Listing` is GET /api/issues, with each fine recomputed.
- `LedgerProperties` (ledger_props.dfy): invariants the handlers keep, and the ones they do not.
- `OverdueScan` (overdue.dfy):
  - One tick of the one-minute timer, as a `for` loop with `continue` over the overdue issues.
  - The socket hub, whose room membership changes on connect, `join` and disconnect.
  - Emits go to an outbox, together with the sockets in the addressed room.
- `LedgerScan` (ledger_scan.dfy): how an issued or returned loan shows up in a later tick.
- `Catalog` and `CatalogProperties` (catalog.dfy, catalog_props.dfy): the book routes.
  - GET /search: the id union, the query built field by field, and enrichment.
  - GET / and GET /:book_id, with their fallbacks.
  - POST, PUT and DELETE.
- `IssueListView` (issue_list.dfy): the status colour and label, the fine cell, and the list
  merge after a return.
- `NavbarPanels` (navbar.dfy): the three navbar flags, as a class with three toggles.
- `ContactList` and `ContactForms` (contacts.dfy, forms.dfy): the contact-number editors and
  the submit payloads of the publication, dashboard, student and author forms.
  - The dashboard component is a copy of the publication form, so both share one model.
  - The author and student forms share `handleContactChange` and `addContact` with that form. Only
    the publication form (and its dashboard copy) has `removeContact`.

Times are integer milliseconds since the epoch. `Date.now()` and `new Date()` become explicit
`now` parameters. MongoDB's `$text` search and case-insensitive `$regex` are the two
uninterpreted predicates of `Catalog.Matchers`.

### Behaviour of the code worth knowing

The model follows the code in each case:

- Issuing a book does not check `available`. Any stored book can be lent again
  (`LedgerProperties.IssueOfLentBookOpensSecondLoan`).
- The book is marked unavailable before the issue is saved. A save that fails validation
  answers 400 but leaves the book unavailable (`LedgerProperties.FailedSaveStrandsBook`).
- Returning an issue that is already returned is accepted. The return date and fine are
  overwritten and the book is marked available again (`LedgerProperties.RepeatReturnOverwrites`).
- PUT on a book does not run the schema validators, so a negative price is stored
  (`CatalogProperties.UpdateSkipsValidation`).
- `addAddress` in the student form replaces the contact list with the address's characters
  (`ContactForms.AddAddressSubmitsAddressCharacters`).
- `addAddress` (StudentForm.jsx:65) and `toggleSearch` (Navbar.jsx:38) are defined but no
  element's handler calls them. The model states what each would do if called.

## Model

| member | source | states |
|---|---|---|
| FinePolicy.DaysLate | library-backend/routes/issueRoutes.js:73 | for a positive lateness, the day count is the ceiling of lateness over 86 400 000 ms: at least 1, and the lateness lies in ((d-1)·day, d·day] |
| FinePolicy.Fine | library-backend/routes/issueRoutes.js:71-75 | 0 when there is no return date or it is on or before the due date; otherwise the ceiling of the days late times 1 |
| FinePolicy.FineMonotonic | library-backend/routes/issueRoutes.js:71-75 | a later return date never gives a smaller fine |
| FinePolicy.FineGrowsByDay | library-backend/routes/issueRoutes.js:73-74 | once late, each further 24 h adds exactly one unit |
| FinePolicy.FineExamples | library-backend/routes/issueRoutes.js:71-75 | worked values: none or on time gives 0; 1 ms, 1 s or exactly 24 h late gives 1; 36 h late gives 2 |
| Models.NewBook | library-backend/models/Book.js:3-35 | a book document saves iff title, category and publication_id are non-empty and a price ≥ 0 is given; `available` defaults to true and `author_ids` to []; the saved price and given author ids are those supplied |
| Models.NewIssue | library-backend/models/Issue.js:3-35 | an issue document saves iff its ids are non-empty and both dates are given; it starts open (no return date) with fine 0, or the fine given |
| Ledger.FindIssue | library-backend/routes/issueRoutes.js:56 | `findOne({issue_id})`: none iff no stored issue has the id; otherwise the first index holding it |
| Ledger.IssueStep | library-backend/routes/issueRoutes.js:29-50 | unknown book gives 400 "Book not available" and no change; otherwise the book is set unavailable; Created iff the new issue validates and its id is unused, appending exactly that issue (id `ISS<now>`, open, fine 0); otherwise 400 with the issues unchanged |
| Ledger.Returned | library-backend/routes/issueRoutes.js:58-62 | the returned issue carries the return date and the fine for it; every other field is unchanged |
| Ledger.IssueIdAt | library-backend/routes/issueRoutes.js:37 | the id of a new issue is "ISS" followed by the decimal digits of the clock |
| Ledger.ReturnStep | library-backend/routes/issueRoutes.js:53-69 | 404 iff the id is not stored; 400 iff stored but no date is given, both without change; otherwise that issue is replaced by its returned form and its book, if stored, set available |
| Ledger.Listing | library-backend/routes/issueRoutes.js:7-26 | one entry per stored issue in store order, with the fine recomputed from its dates and its book looked up by book_id |
| Ledger.LoanLedger.IssueBook | library-backend/routes/issueRoutes.js:29-50 | writing the book first and saving the issue second leaves exactly the state and response of `IssueStep` |
| Ledger.LoanLedger.ReturnBook | library-backend/routes/issueRoutes.js:53-69 | updating the issue then the book leaves exactly the state and response of `ReturnStep` |
| LedgerProperties.IssueIdsDifferByClock | library-backend/routes/issueRoutes.js:37 | two issue ids are equal iff they were made at the same millisecond |
| LedgerProperties.IssuePreservesWellformed | library-backend/routes/issueRoutes.js:36-45 | issuing keeps the book index, the uniqueness of issue ids and every stored fine current |
| LedgerProperties.ReturnPreservesWellformed | library-backend/routes/issueRoutes.js:58-64 | returning keeps the same three facts |
| LedgerProperties.ListingShowsStoredIssues | library-backend/routes/issueRoutes.js:9-19 | when stored fines are current, the listing shows each stored issue unchanged |
| LedgerProperties.FindIssueAfterUpdate | library-backend/routes/issueRoutes.js:56-63 | updating an issue in place under the same id does not change where any id is found |
| LedgerProperties.RepeatReturnOverwrites | library-backend/routes/issueRoutes.js:53-69 | a second return of the same issue succeeds, leaves the second date and its fine, and marks the issue's book, if stored, available again |
| LedgerProperties.FindAppended | library-backend/routes/issueRoutes.js:45 | a saved issue with a fresh id is found at the end of the store |
| LedgerProperties.IssueThenReturnOnTime | library-backend/routes/issueRoutes.js:29-75 | issuing and then returning on or before the due date succeeds with fine 0 and makes the book available |
| LedgerProperties.IssueOfAvailableBookKeepsExclusive | library-backend/routes/issueRoutes.js:44-45 | when `available` is exactly "no open loan" and each book has at most one open loan, issuing an available book keeps both |
| LedgerProperties.ReturnOfOpenIssueKeepsExclusive | library-backend/routes/issueRoutes.js:59-64 | returning an open loan keeps both facts |
| LedgerProperties.IssueOfLentBookOpensSecondLoan | library-backend/routes/issueRoutes.js:32-45 | a book that is already lent is lent again: from an exclusive state, the new state has two open loans of one book |
| LedgerProperties.FailedSaveStrandsBook | library-backend/routes/issueRoutes.js:44-48 | an issue without a due date answers 400 "Invalid data" yet leaves the book unavailable with no loan recorded |
| OverdueScan.IsOverdue | library-backend/app.js:54-57 | an issue is in the overdue query iff it is open and returning it now would be charged at least one day |
| OverdueScan.Reported | library-backend/app.js:64-67 | a reported issue is open and overdue, and an issue whose book does not resolve is never reported |
| OverdueScan.EmitFor | library-backend/app.js:68-74 | the emit goes to the room named by the student id with event "notification", carrying the issue id, due date and book title ("Unknown Book" when the title is empty), received by that room's members |
| OverdueScan.Notices | library-backend/app.js:53-75 | the emits of one tick never outnumber the issues, and each is a "notification" received by exactly the members of its room |
| OverdueScan.SocketHub.constructor | library-backend/app.js:37 | no sockets, no rooms, nothing emitted |
| OverdueScan.SocketHub.Connect | library-backend/app.js:37-38 | a connection adds the socket and puts it in the room named by its own id; nothing else changes |
| OverdueScan.SocketHub.Join | library-backend/app.js:40-43 | `join(studentId)` adds the socket to that room and changes no other room |
| OverdueScan.SocketHub.Disconnect | library-backend/app.js:45-47 | the socket leaves the connected set and every room; only connected sockets stay in rooms |
| OverdueScan.SocketHub.ScanCycle | library-backend/app.js:51-79 | one tick appends exactly the emits of `Notices` in query order, skipping issues whose book does not resolve; rooms are unchanged, and every new emit reaches only connected sockets |
| OverdueScan.NoticesConcat | library-backend/app.js:63-75 | the emits over two runs of issues are the emits of each, in order |
| OverdueScan.NoticesMembership | library-backend/app.js:54-75 | an emit is produced iff some issue is overdue, open and has a resolving book, and the emit is built from that issue |
| OverdueScan.NoticesSingle | library-backend/app.js:63-75 | a single issue yields its emit exactly when it is reported |
| OverdueScan.ReportedAgainLater | library-backend/app.js:54-56 | an emit made at one tick is made again at every later tick while the issue stays open |
| OverdueScan.JoinedSocketReceives | library-backend/app.js:40-43 | a socket that joined a student's room receives a notice for each reported issue of that student |
| LedgerScan.IssuedLoanIsReportedOnceOverdue | library-backend/app.js:54-74 | under any title lookup in which the loan's book resolves, a loan created by POST /api/issues is notified to its student's room at any tick after its due date, with id `ISS<now>`, its due date and the looked-up title ("Unknown Book" when empty) |
| LedgerScan.ReturnedLoanIsNotReported | library-backend/app.js:54-56 | after a successful return, no tick emits a notice with that issue id |
| Catalog.BookIds | library-backend/routes/bookRoutes.js:16 | the ids of the books, one per book, in order |
| Catalog.AuthorIdsNamed | library-backend/routes/bookRoutes.js:19 | the id of every author whose name matches the pattern, and only such ids |
| Catalog.FindPublication | library-backend/routes/bookRoutes.js:48 | none iff no publication has the id; otherwise a stored publication with that id |
| Catalog.AuthorsListed | library-backend/routes/bookRoutes.js:49 | exactly the stored authors whose id is among the book's author ids |
| Catalog.Enrich | library-backend/routes/bookRoutes.js:46-71 | one hit per found book, in order, with the first publication carrying its id (or none) and exactly the stored authors it lists |
| Catalog.MatchedIds | library-backend/routes/bookRoutes.js:13-24 | empty when `q` is not given; otherwise without repeats, and every id is the id of a stored book |
| Catalog.QueryFor | library-backend/routes/bookRoutes.js:27-40 | an id filter only when `q` is given, and then non-empty and without repeats; a category filter iff `category` is given, with that pattern; an author filter iff `author` is given; `available` required iff the parameter is the string "true" |
| Catalog.Find | library-backend/routes/bookRoutes.js:43 | the result holds only stored books that pass the query, and every stored book that passes it |
| Catalog.BuildQuery | library-backend/routes/bookRoutes.js:9-40 | assigning the filters one by one yields the query of `QueryFor` |
| Catalog.Search | library-backend/routes/bookRoutes.js:7-78 | the response is the enrichment of the books that match the built query |
| Catalog.Populate | library-backend/routes/bookRoutes.js:86-93 | the book with its publication or the `{publication_id}` fallback, and its authors (the stored authors it lists, in store order) or, when none are found, one `{author_id}` per listed id |
| Catalog.ListBooks | library-backend/routes/bookRoutes.js:80-101 | one entry per stored book, in store order, each the populated form of that book |
| Catalog.FindBook | library-backend/routes/bookRoutes.js:105 | none iff no book has the id; otherwise the first index holding it |
| Catalog.GetBook | library-backend/routes/bookRoutes.js:103-119 | 404 iff no book has the id; otherwise the populated form of the first stored book with that id |
| Catalog.BookIdAt | library-backend/routes/bookRoutes.js:126 | the id of a new book is "BOOK" followed by the decimal digits of the clock |
| Catalog.CreateBook | library-backend/routes/bookRoutes.js:122-140 | created iff the document validates and `BOOK<now>` is unused, appending the document `NewBook` builds from the body's fields, with `available` defaulting to true; otherwise 400 "Invalid data" and no change |
| Catalog.ApplyInput | library-backend/routes/bookRoutes.js:145-148 | every field the body gives replaces the stored one, every absent field is kept, and the id never changes |
| Catalog.UpdateBook | library-backend/routes/bookRoutes.js:143-157 | 404 and no change iff the id is unknown; otherwise the first such book is replaced by its updated form, which is returned |
| Catalog.DeleteBook | library-backend/routes/bookRoutes.js:160-169 | 404 and no change iff the id is unknown; otherwise the first such book is removed, the rest keep their order, and the message is "Book deleted" |
| Common.Dedupe | library-backend/routes/bookRoutes.js:23 | `[...new Set(s)]` has no repeats, holds every element of `s` and nothing else |
| Common.DedupeUnion | library-backend/routes/bookRoutes.js:23 | `[...new Set(a ++ b)]` keeps a duplicate-free `a` as its prefix, has no repeats and holds exactly the elements of both |
| CatalogProperties.FilterKeepsUniqueIds | library-backend/routes/bookRoutes.js:43 | a query result of a store with unique book ids has unique ids |
| CatalogProperties.IdsOfFilter | library-backend/routes/bookRoutes.js:20-23 | an id is among a filtered result's ids iff a stored book with that id passes the filter |
| CatalogProperties.MatchedIdsSpec | library-backend/routes/bookRoutes.js:13-24 | the id list has no repeats, starts with the title matches, and holds an id iff `q` is given and a book with that id matches `q` by title or by an author's name |
| CatalogProperties.SearchFindsExactly | library-backend/routes/bookRoutes.js:26-43 | a book is found iff it is stored and passes each filter that was set: id list when non-empty, category, author, and `available` only for the string "true" |
| CatalogProperties.UnmatchedQueryDoesNotNarrow | library-backend/routes/bookRoutes.js:28-30 | a `q` that matches nothing adds no id filter, so with no other filter every book is returned |
| CatalogProperties.NoAuthorNamed | library-backend/routes/bookRoutes.js:35 | no matching author name gives an empty author-id list |
| CatalogProperties.UnknownAuthorFindsNothing | library-backend/routes/bookRoutes.js:34-37 | an `author` parameter matching no author finds no book |
| CatalogProperties.BookIdsDifferByClock | library-backend/routes/bookRoutes.js:126 | two book ids are equal iff they were made at the same millisecond |
| CatalogProperties.CreateKeepsUniqueIds | library-backend/routes/bookRoutes.js:125-134 | creating a book keeps book ids unique |
| CatalogProperties.UpdateKeepsUniqueIds | library-backend/routes/bookRoutes.js:146-150 | updating a book keeps book ids unique |
| CatalogProperties.UpdateSkipsValidation | library-backend/routes/bookRoutes.js:146-150 | PUT stores a negative price that POST would refuse |
| IssueListView.StatusColorOf | library-management-frontend/src/components/IssueList.jsx:39-51 | green iff returned; red iff open and past due; amber iff open, not past due and due within three days; blue iff open and due three days or more ahead |
| IssueListView.StatusLabelOf | library-management-frontend/src/components/IssueList.jsx:109-110 | "Returned" iff a return date is set; "Overdue" iff open and past due; otherwise "Active" |
| IssueListView.FineCellOf | library-management-frontend/src/components/IssueList.jsx:101-105 | the fine is shown as charged iff it is positive, with that amount; otherwise "$0.00" |
| IssueListView.ColorAgreesWithLabel | library-management-frontend/src/components/IssueList.jsx:39-51 | at one instant, green goes with "Returned", red with "Overdue", and amber or blue with "Active" |
| IssueListView.MergeReturned | library-management-frontend/src/components/IssueList.jsx:29-31 | the rows keep their number and order; the row with the returned id takes the server's answer over its fields, and others are unchanged |
| IssueListView.OpenIssuesShowNoFine | library-management-frontend/src/components/IssueList.jsx:101-105 | an issue that is not returned is listed with no fine charged |
| IssueListView.MergeMatchesRefetch | library-management-frontend/src/components/IssueList.jsx:24-37 | after a successful return, the merged list shows the same issues as a fresh listing; the row is green, labelled "Returned", offers no Return button and shows the new fine |
| NavbarPanels.Step | library-management-frontend/src/components/Navbar.jsx:23-43 | a toggle flips its own flag; opening the mobile menu closes both other panels; opening notifications closes search and vice versa; closing changes nothing else |
| NavbarPanels.RunKeepsExclusive | library-management-frontend/src/components/Navbar.jsx:31-43 | from a state where notifications and search are not both open, no sequence of toggles opens both |
| NavbarPanels.NeverBothOpen | library-management-frontend/src/components/Navbar.jsx:19-21 | from the initial all-closed state, notifications and search are never both open |
| NavbarPanels.Navbar.constructor | library-management-frontend/src/components/Navbar.jsx:19-21 | every panel starts closed |
| NavbarPanels.Navbar.ToggleMobileMenu | library-management-frontend/src/components/Navbar.jsx:23-29 | the new flags are those of `Step` for the mobile menu, from the flags before the call |
| NavbarPanels.Navbar.ToggleNotifications | library-management-frontend/src/components/Navbar.jsx:31-36 | the new flags follow `Step` for notifications, and search and notifications are not both open |
| NavbarPanels.Navbar.ToggleSearch | library-management-frontend/src/components/Navbar.jsx:38-43 | the new flags follow `Step` for search, and search and notifications are not both open |
| Common.Trim | library-management-frontend/src/components/PublicationForm.jsx:43 | the trimmed text is empty or neither starts nor ends with whitespace |
| Common.TrimSlice | library-management-frontend/src/components/PublicationForm.jsx:43 | the trimmed text is a slice of the original with only whitespace cut from either side |
| Common.DecimalInjective | library-backend/routes/issueRoutes.js:37 | two natural numbers print the same decimal text iff they are equal |
| Common.TrimEmptyIffBlank | library-management-frontend/src/components/PublicationForm.jsx:43 | `s.trim() === ''` iff every character of `s` is ECMAScript whitespace |
| ContactList.AddContact | library-management-frontend/src/components/PublicationForm.jsx:63-65 | exactly one "" is appended and earlier rows are unchanged |
| ContactList.ChangeContact | library-management-frontend/src/components/PublicationForm.jsx:57-61 | row `index` becomes the value; the length and every other row are unchanged |
| ContactList.RemoveContact | library-management-frontend/src/components/PublicationForm.jsx:67-73 | with more than one row, row `index` is removed and the rest keep their order; otherwise nothing changes, so a non-empty list stays non-empty |
| ContactList.Normalise | library-management-frontend/src/components/PublicationForm.jsx:24 | an empty loaded list becomes [""], and a non-empty one is kept as is |
| ContactList.Submitted | library-management-frontend/src/components/PublicationForm.jsx:43 | the payload is no longer than the list, holds only rows with a non-whitespace character, and holds every such row |
| ContactList.SubmittedSpec | library-management-frontend/src/components/PublicationForm.jsx:43 | the payload holds the rows with a non-whitespace character and no others, in their order |
| ContactList.SubmittedIdempotent | library-management-frontend/src/components/Dashboard.jsx:43 | filtering a submitted list again changes nothing |
| ContactList.BlankRowsAreNotSubmitted | library-management-frontend/src/components/Dashboard.jsx:63-65 | the blank row added by `addContact` or by load normalisation never reaches the payload |
| ContactForms.ToNumber | library-management-frontend/src/components/StudentForm.jsx:38 | `Number(text)`: a blank text gives 0, and an integer result is the value of the trimmed text as an optionally signed run of decimal digits |
| ContactForms.IntText | library-management-frontend/src/components/StudentForm.jsx:18 | a number shown in the semester input is a non-empty text |
| Common.DecimalDigits | library-management-frontend/src/components/StudentForm.jsx:38 | the decimal text of a natural number is all digits and reads back as that number |
| ContactForms.TrimUnpadded | library-management-frontend/src/components/StudentForm.jsx:40 | a text that neither starts nor ends with whitespace is its own trim |
| ContactForms.NumberOfDigits | library-management-frontend/src/components/StudentForm.jsx:38 | `Number` of a run of decimal digits is its value |
| ContactForms.NumberOfNegated | library-management-frontend/src/components/StudentForm.jsx:38 | `Number` of a minus sign followed by digits is the negated value |
| ContactForms.NumberOfIntText | library-management-frontend/src/components/StudentForm.jsx:38 | `Number` of the text of an integer is that integer |
| ContactForms.SemesterNumber | library-management-frontend/src/components/StudentForm.jsx:38 | a loaded semester is sent as that number; typed text is sent as `Number(text)`, which is 0 for blank text |
| ContactForms.LoadStudent | library-management-frontend/src/components/StudentForm.jsx:16-21 | the draft keeps name and address, holds the loaded semester number, and its contact rows are the stored list with an empty one normalised to [""] |
| ContactForms.SubmitStudent | library-management-frontend/src/components/StudentForm.jsx:36-41 | the payload keeps name and address, sends the semester as `Number` of the field, and its contact numbers are exactly the non-blank rows in order |
| ContactForms.AddAddress | library-management-frontend/src/components/StudentForm.jsx:65-67 | the contact rows become one row per character of the address, then "", with the other fields unchanged |
| ContactForms.Characters | library-management-frontend/src/components/StudentForm.jsx:66 | spreading a string gives one single-character string per character, in order |
| ContactForms.CharacterSubmitted | library-management-frontend/src/components/StudentForm.jsx:40 | a one-character row is submitted iff that character is not whitespace |
| ContactForms.CharactersSubmitted | library-management-frontend/src/components/StudentForm.jsx:40 | submitting spread characters keeps exactly the non-whitespace characters, in order |
| ContactForms.SplitHead | library-management-frontend/src/components/StudentForm.jsx:40 | the blank filter over spread characters splits at the first character |
| ContactForms.CharactersConcat | library-management-frontend/src/components/StudentForm.jsx:66 | spreading a concatenation is the concatenation of the spreads |
| ContactForms.AddAddressSubmitsAddressCharacters | library-management-frontend/src/components/StudentForm.jsx:36-67 | after `addAddress`, saving sends each non-whitespace character of the address as its own contact number, in order, and nothing else |
| ContactForms.StudentLoadSubmit | library-management-frontend/src/components/StudentForm.jsx:16-41 | opening a stored student and saving it unchanged sends its name, semester and address, and its non-blank contact numbers |
| ContactForms.RetypedSemesterKeepsPayload | library-management-frontend/src/components/StudentForm.jsx:38 | typing the semester back in as it is displayed does not change the payload |
| ContactForms.LoadPublication | library-management-frontend/src/components/PublicationForm.jsx:20-25 | the draft keeps name and address, and its contact rows are the stored list with an empty one normalised to [""] |
| ContactForms.SubmitPublication | library-management-frontend/src/components/PublicationForm.jsx:40-44 | the payload keeps name and address, and its contact numbers are exactly the non-blank rows in order |
| ContactForms.PublicationSaveIsStable | library-management-frontend/src/components/Dashboard.jsx:20-44 | saving, reopening the stored record and saving again sends the same payload |
| ContactForms.LoadAuthor | library-management-frontend/src/components/AuthorForm.jsx:16-19 | the draft keeps the name, and its contact rows are the stored list with an empty one normalised to [""] |
| ContactForms.SubmitAuthor | library-management-frontend/src/components/AuthorForm.jsx:34-37 | the payload has only the name and the contact numbers, which are exactly the non-blank rows in order |
| ContactForms.AuthorLoadSubmit | library-management-frontend/src/components/AuthorForm.jsx:16-37 | a stored author with no blank contact number comes back unchanged when opened and saved without edits |

## Left out

- Persistence and HTTP are not modelled. MongoDB becomes in-memory stores, and Express status codes and JSON bodies become a response datatype.
- Mongoose internals beyond what the handlers observe are not modelled. This covers casting, `_id`, `__v`, `timestamps` and the shape of `_doc`.
- Unexpected store errors are not modelled, and neither are the resulting 500 answers from GET / and /search or the `catch` of the scan.
- Ledger.IssueStep: date strings are not parsed. A request date is present as integer milliseconds or absent. An unparsable date is treated like an absent one (the save fails).
- Ledger.ReturnStep: an absent `return_date` gives 400, which is what the NaN fine's cast error produces. An explicit `null` is not distinguished from absence: the code would store a null return date with fine 0.
- Ledger.Listing: the student looked up for each issue is not modelled. The student store is not part of this model.
- Concurrency is not modelled. Two requests interleaving between the book write and the issue save, or between the two finds, are left out; the model is sequential.
- The clock is a parameter. `Date.now()`, `new Date()` and the 60 000 ms timer period are not modelled; one tick is one `ScanCycle` call.
- OverdueScan.SocketHub.ScanCycle: the query and the `populate` of `book_id` are not evaluated. The caller supplies the overdue query's input and the `book_id -> title` lookup, which may miss.
- LedgerScan.IssuedLoanIsReportedOnceOverdue: holds only for a title lookup in which the loan's book resolves. The scan populates the string `book_id` reference, which Mongoose resolves against the book's `_id` rather than its `book_id`. A stored `book_id` such as `BOOK<ms>` does not cast to an ObjectId, and populate does not skip ids that fail to cast by default, so the populate query fails and the `catch` (app.js:76-78) drops every emit of that tick, not only this loan's. Only a `book_id` that casts but matches no book leaves the loan skipped by the null check (app.js:64-67). The model takes the lookup as given and does not model the failing populate.
- Logging (`console.log`/`warn`/`error`) and socket.io's network delivery are not modelled. An emit records its recipients and nothing more.
- Catalog.Search: MongoDB `$text` and case-insensitive `$regex` matching are the uninterpreted predicates of `Matchers`. Their tokenisation, stemming and regular-expression syntax are not modelled.
- Catalog.Search: the order of `find` results is taken to be store order. MongoDB does not promise an order.
- Catalog.Populate: the response objects' extra keys (`_id`, and the spread of `book.toObject()`) are kept as the stored book and its joined records.
- Catalog.ApplyInput: assumes a Mongoose version (6 or later) that strips `undefined` keys from an update, so a field absent from the PUT body keeps its stored value. Mongoose 5 and earlier write such a field as null; the model does not capture that.
- Catalog.UpdateBook: Mongoose casting of update values (for example a string price) is not modelled. The body's fields are typed.
- IssueListView.StatusLabelOf: the label reads its own `new Date()`, separate from `getStatusColor`'s. The model takes one instant for both; `ColorAgreesWithLabel` holds only at one instant.
- Rendering (`toLocaleDateString`, CSS class strings, icons, modals and navigation) is not modelled.
- ContactForms.ToNumber: only blank text and optionally signed decimal integers are evaluated. Fractions, exponents, hex, `Infinity` and NaN come out as `Unevaluated`, and the 2^53 precision limit of JavaScript numbers is not modelled.
- ContactForms.LoadStudent: the loaded semester is taken to be an integer.
- ContactList.ChangeContact: an index past the end is not modelled (JavaScript would pad the array with holes). The forms only pass indices of rendered rows.
- The fetch-failure paths of the forms are not modelled. A failed load leaves the empty draft (`EmptyStudent`, `EmptyPublication`, `EmptyAuthor`), and a failed save shows an alert.
- Authentication and the thin CRUD routes are not part of this model. This covers the author, publication and student routes and the user schema; the author and publication records appear only as data the catalog joins.

=== FILE: catalog.dfy ===
/** The book routes: GET /search (id union, query building, lookup, enrichment), GET / and
    GET /:book_id with their fallbacks, POST, PUT and DELETE. The book, author and
    publication collections are sequences in store order. */
module Catalog {
  import opened Common
  import opened Models

  /** The query-string parameters of /search; None when a parameter is absent. */
  datatype SearchParams = SearchParams(
    q: Option<string>,
    category: Option<string>,
    author: Option<string>,
    available: Option<string>)

  /** The database's own matching, which the model leaves uninterpreted: `$text` search of a
      string against a book, and a case-insensitive `$regex` of a pattern against a string. */
  datatype Matchers = Matchers(text: (string, Book) -> bool, regex: (string, string) -> bool)

  /** The filter document passed to Book.find; None (or false) when a filter is not added. */
  datatype Query = Query(
    book_ids: Option<seq<string>>,
    category: Option<string>,
    author_ids: Option<seq<string>>,
    available_only: bool)

  datatype SearchHit = SearchHit(book: Book, publication: Option<Publication>, authors: seq<Author>)

  /** JavaScript truthiness of a query parameter: present and non-empty. */
  predicate Truthy(p: Option<string>)
  {
    p.Some? && p.value != ""
  }

  function BookIds(books: seq<Book>): (ids: seq<string>)
    ensures |ids| == |books| && forall k :: 0 <= k < |books| ==> ids[k] == books[k].book_id
  {
    seq(|books|, k requires 0 <= k < |books| => books[k].book_id)
  }

  /** `Author.find({ name: { $regex: pattern, $options: 'i' } })`, reduced to the ids. */
  function AuthorIdsNamed(authors: seq<Author>, pattern: string, m: Matchers): (ids: seq<string>)
    ensures forall a :: a in authors && m.regex(pattern, a.name) ==> a.author_id in ids
    ensures forall id :: id in ids ==> exists a :: a in authors && m.regex(pattern, a.name) && a.author_id == id
  {
    if authors == [] then []
    else
      (if m.regex(pattern, authors[0].name) then [authors[0].author_id] else []) +
        AuthorIdsNamed(authors[1..], pattern, m)
  }

  /** Mongo's `$in` against an array field: some element of the array is listed. */
  predicate AnyIn(values: seq<string>, listed: seq<string>)
  {
    exists v :: v in values && v in listed
  }

  /** The id list of /search: the title matches, then the books written by a matching author,
      without repeats. Empty when `q` is not given. */
  function MatchedIds(p: SearchParams, books: seq<Book>, authors: seq<Author>, m: Matchers): (ids: seq<string>)
    ensures !Truthy(p.q) ==> ids == []
    ensures NoDuplicates(ids)
    ensures forall k :: 0 <= k < |ids| ==> exists b :: b in books && b.book_id == ids[k]
  {
    if !Truthy(p.q) then []
    else
      var q := p.q.value;
      var titleIds := BookIds(Filter(books, (b: Book) => m.text(q, b)));
      var authorIds := AuthorIdsNamed(authors, q, m);
      Dedupe(titleIds + BookIds(Filter(books, (b: Book) => AnyIn(b.author_ids, authorIds))))
  }

  /** The filter document /search builds from its parameters. */
  function QueryFor(p: SearchParams, books: seq<Book>, authors: seq<Author>, m: Matchers): (query: Query)
    ensures query.book_ids.Some? ==> Truthy(p.q) && query.book_ids.value != [] && NoDuplicates(query.book_ids.value)
    ensures query.category.Some? <==> Truthy(p.category)
    ensures query.category.Some? ==> query.category.value == p.category.value
    ensures query.author_ids.Some? <==> Truthy(p.author)
    ensures query.available_only <==> p.available == Some("true")
  {
    var ids := MatchedIds(p, books, authors, m);
    Query(if |ids| > 0 then Some(ids) else None,
          if Truthy(p.category) then Some(p.category.value) else None,
          if Truthy(p.author) then Some(AuthorIdsNamed(authors, p.author.value, m)) else None,
          p.available == Some("true"))
  }

  /** A book satisfies every filter the query holds. */
  predicate Matches(b: Book, query: Query, m: Matchers)
  {
    && (query.book_ids.Some? ==> b.book_id in query.book_ids.value)
    && (query.category.Some? ==> m.regex(query.category.value, b.category))
    && (query.author_ids.Some? ==> AnyIn(b.author_ids, query.author_ids.value))
    && (query.available_only ==> b.available)
  }

  /** `Book.find(query)`. */
  function Find(books: seq<Book>, query: Query, m: Matchers): (r: seq<Book>)
    ensures |r| <= |books|
    ensures forall k :: 0 <= k < |r| ==> r[k] in books && Matches(r[k], query, m)
    ensures forall k :: 0 <= k < |books| && Matches(books[k], query, m) ==> books[k] in r
  {
    Filter(books, (b: Book) => Matches(b, query, m))
  }

  /** `findOne({ publication_id })`: the first publication with that id. */
  function FindPublication(pubs: seq<Publication>, id: string): (r: Option<Publication>)
    ensures r.None? <==> forall k :: 0 <= k < |pubs| ==> pubs[k].publication_id != id
    ensures r.Some? ==> r.value in pubs && r.value.publication_id == id
  {
    if pubs == [] then None
    else if pubs[0].publication_id == id then Some(pubs[0])
    else FindPublication(pubs[1..], id)
  }

  /** `Author.find({ author_id: { $in: ids } })`: the authors listed, in store order. */
  function AuthorsListed(authors: seq<Author>, ids: seq<string>): (r: seq<Author>)
    ensures forall k :: 0 <= k < |r| ==> r[k] in authors && r[k].author_id in ids
    ensures forall k :: 0 <= k < |authors| && authors[k].author_id in ids ==> authors[k] in r
  {
    Filter(authors, (a: Author) => a.author_id in ids)
  }

  /** The per-book enrichment of /search: the publication or null, and the book's authors. */
  function Enrich(found: seq<Book>, authors: seq<Author>, pubs: seq<Publication>): (r: seq<SearchHit>)
    ensures |r| == |found|
    ensures forall k :: 0 <= k < |r| ==>
              r[k].book == found[k] &&
              r[k].publication == FindPublication(pubs, found[k].publication_id) &&
              (r[k].publication.None? <==> forall j :: 0 <= j < |pubs| ==> pubs[j].publication_id != found[k].publication_id) &&
              (forall a :: a in r[k].authors <==> a in authors && a.author_id in found[k].author_ids)
  {
    seq(|found|, k requires 0 <= k < |found| =>
      SearchHit(found[k], FindPublication(pubs, found[k].publication_id),
                AuthorsListed(authors, found[k].author_ids)))
  }

  /** Builds the filter document of /search field by field, as the handler does. */
  method BuildQuery(p: SearchParams, books: seq<Book>, authors: seq<Author>, m: Matchers)
    returns (query: Query)
    ensures query == QueryFor(p, books, authors, m)
  {
    var bookIds: seq<string> := [];
    if Truthy(p.q) {
      var q := p.q.value;
      bookIds := BookIds(Filter(books, (b: Book) => m.text(q, b)));
      var authorIds := AuthorIdsNamed(authors, q, m);
      var authorBooks := Filter(books, (b: Book) => AnyIn(b.author_ids, authorIds));
      bookIds := Dedupe(bookIds + BookIds(authorBooks));
    }
    query := Query(None, None, None, false);
    if |bookIds| > 0 {
      query := query.(book_ids := Some(bookIds));
    }
    if Truthy(p.category) {
      query := query.(category := Some(p.category.value));
    }
    if Truthy(p.author) {
      query := query.(author_ids := Some(AuthorIdsNamed(authors, p.author.value, m)));
    }
    if p.available == Some("true") {
      query := query.(available_only := true);
    }
  }

  /** GET /search: build the filter, find the books, enrich each one. */
  method Search(p: SearchParams, books: seq<Book>, authors: seq<Author>, pubs: seq<Publication>, m: Matchers)
    returns (hits: seq<SearchHit>)
    ensures hits == Enrich(Find(books, QueryFor(p, books, authors, m), m), authors, pubs)
  {
    var query := BuildQuery(p, books, authors, m);
    var found := Find(books, query, m);
    hits := Enrich(found, authors, pubs);
  }

  // ---- GET /, GET /:book_id and their fallbacks ----

  datatype PublicationRef = FullPublication(publication: Publication) | PublicationIdOnly(publication_id: string)

  datatype AuthorRef = FullAuthor(author: Author) | AuthorIdOnly(author_id: string)

  datatype PopulatedBook = PopulatedBook(book: Book, publication: PublicationRef, authors: seq<AuthorRef>)

  datatype Reply<T> = Ok(value: T) | NotFound(error: string) | BadRequest(error: string)

  /** One book with its publication and authors, or `{ publication_id }` and
      `{ author_id }` stand-ins when the lookups come back empty. */
  function Populate(b: Book, authors: seq<Author>, pubs: seq<Publication>): (r: PopulatedBook)
    ensures r.book == b
    ensures r.publication.PublicationIdOnly? <==> FindPublication(pubs, b.publication_id).None?
    ensures r.publication.PublicationIdOnly? ==> r.publication.publication_id == b.publication_id
    ensures r.publication.FullPublication? ==> r.publication.publication.publication_id == b.publication_id
    ensures r.publication.FullPublication? ==> Some(r.publication.publication) == FindPublication(pubs, b.publication_id)
    ensures AuthorsListed(authors, b.author_ids) == [] ==>
              |r.authors| == |b.author_ids| &&
              forall k :: 0 <= k < |b.author_ids| ==> r.authors[k] == AuthorIdOnly(b.author_ids[k])
    ensures AuthorsListed(authors, b.author_ids) != [] ==>
              var found := AuthorsListed(authors, b.author_ids);
              |r.authors| == |found| &&
              forall k :: 0 <= k < |found| ==> r.authors[k] == FullAuthor(found[k]) && found[k].author_id in b.author_ids
  {
    var pub := match FindPublication(pubs, b.publication_id)
               case Some(p) => FullPublication(p)
               case None => PublicationIdOnly(b.publication_id);
    var found := AuthorsListed(authors, b.author_ids);
    var refs := if |found| > 0 then seq(|found|, k requires 0 <= k < |found| => FullAuthor(found[k]))
                else seq(|b.author_ids|, k requires 0 <= k < |b.author_ids| => AuthorIdOnly(b.author_ids[k]));
    PopulatedBook(b, pub, refs)
  }

  /** GET /: every book once, in store order, populated. */
  function ListBooks(books: seq<Book>, authors: seq<Author>, pubs: seq<Publication>): (r: seq<PopulatedBook>)
    ensures |r| == |books|
    ensures forall k :: 0 <= k < |r| ==> r[k].book == books[k] && r[k] == Populate(books[k], authors, pubs)
  {
    seq(|books|, k requires 0 <= k < |books| => Populate(books[k], authors, pubs))
  }

  /** `findOne({ book_id })`: the position of the first book with that id. */
  function FindBook(books: seq<Book>, id: string): (k: Option<nat>)
    ensures k.None? <==> forall j :: 0 <= j < |books| ==> books[j].book_id != id
    ensures k.Some? ==>
              k.value < |books| && books[k.value].book_id == id &&
              forall j :: 0 <= j < k.value ==> books[j].book_id != id
  {
    if books == [] then None
    else if books[0].book_id == id then Some(0)
    else
      match FindBook(books[1..], id)
      case None => None
      case Some(k) => Some(k + 1)
  }

  /** GET /:book_id: 404 for an unknown id, otherwise the populated book. */
  function GetBook(books: seq<Book>, id: string, authors: seq<Author>, pubs: seq<Publication>): (r: Reply<PopulatedBook>)
    ensures r.NotFound? <==> FindBook(books, id).None?
    ensures r.Ok? ==> r.value.book.book_id == id && r.value.book in books
    ensures r.Ok? ==> r.value == Populate(books[FindBook(books, id).value], authors, pubs)
    ensures r.Ok? || r.NotFound?
  {
    match FindBook(books, id)
    case None => NotFound("Book not found")
    case Some(k) => Ok(Populate(books[k], authors, pubs))
  }

  /** The fields of a POST or PUT body; None for a field the body leaves out. */
  datatype BookInput = BookInput(
    title: Option<string>,
    category: Option<string>,
    price: Option<real>,
    available: Option<bool>,
    publication_id: Option<string>,
    author_ids: Option<seq<string>>)

  function OrElse<T>(o: Option<T>, d: T): T
  {
    match o case Some(v) => v case None => d
  }

  /** `BOOK${Date.now()}`. */
  function BookIdAt(now: nat): (id: string)
    ensures |id| > 4 && id[..4] == "BOOK" && AllDigits(id[4..])
  {
    DecimalDigits(now);
    assert ("BOOK" + Decimal(now))[4..] == Decimal(now);
    "BOOK" + Decimal(now)
  }

  /** POST /: a new book under a clock-generated id, validated by the schema; 400 when
      validation fails or the id is already taken. */
  function CreateBook(books: seq<Book>, input: BookInput, now: nat): (r: (seq<Book>, Reply<Book>))
    ensures r.1.Ok? ==>
              r.0 == books + [r.1.value] && ValidBook(r.1.value) &&
              r.1.value.book_id == BookIdAt(now) &&
              r.1.value.available == OrElse(input.available, true)
    ensures r.1.Ok? ==>
              Some(r.1.value) == NewBook(BookIdAt(now), OrElse(input.title, ""), OrElse(input.category, ""),
                                         input.price, input.available, OrElse(input.publication_id, ""),
                                         input.author_ids)
    ensures !r.1.Ok? ==> r.0 == books && r.1 == BadRequest("Invalid data")
    ensures r.1.Ok? <==>
              FindBook(books, BookIdAt(now)).None? &&
              NewBook(BookIdAt(now), OrElse(input.title, ""), OrElse(input.category, ""), input.price,
                      input.available, OrElse(input.publication_id, ""), input.author_ids).Some?
  {
    var doc := NewBook(BookIdAt(now), OrElse(input.title, ""), OrElse(input.category, ""), input.price,
                       input.available, OrElse(input.publication_id, ""), input.author_ids);
    if doc.None? || FindBook(books, BookIdAt(now)).Some? then (books, BadRequest("Invalid data"))
    else (books + [doc.value], Ok(doc.value))
  }

  /** The update document of PUT: the fields the body gives replace the stored ones; the
      schema validators are not run on updates. */
  function ApplyInput(b: Book, input: BookInput): (r: Book)
    ensures r.book_id == b.book_id
    ensures r.title == OrElse(input.title, b.title) && r.category == OrElse(input.category, b.category)
    ensures r.price == OrElse(input.price, b.price) && r.available == OrElse(input.available, b.available)
    ensures r.publication_id == OrElse(input.publication_id, b.publication_id)
    ensures r.author_ids == OrElse(input.author_ids, b.author_ids)
  {
    Book(b.book_id, OrElse(input.title, b.title), OrElse(input.category, b.category),
         OrElse(input.price, b.price), OrElse(input.available, b.available),
         OrElse(input.publication_id, b.publication_id), OrElse(input.author_ids, b.author_ids))
  }

  /** PUT /:book_id: 404 and no change for an unknown id, otherwise the first book with that
      id is updated and returned as it now is. */
  function UpdateBook(books: seq<Book>, id: string, input: BookInput): (r: (seq<Book>, Reply<Book>))
    ensures r.1.NotFound? <==> FindBook(books, id).None?
    ensures r.1.NotFound? ==> r.0 == books
    ensures r.1.Ok? ==>
              var k := FindBook(books, id).value;
              r.1.value == ApplyInput(books[k], input) && r.0 == books[k := r.1.value]
    ensures r.1.Ok? || r.1.NotFound?
  {
    match FindBook(books, id)
    case None => (books, NotFound("Book not found"))
    case Some(k) =>
      var updated := ApplyInput(books[k], input);
      (books[k := updated], Ok(updated))
  }

  /** DELETE /:book_id: 404 and no change for an unknown id, otherwise the first book with
      that id is removed and the others keep their order. */
  function DeleteBook(books: seq<Book>, id: string): (r: (seq<Book>, Reply<string>))
    ensures r.1.NotFound? <==> FindBook(books, id).None?
    ensures r.1.NotFound? ==> r.0 == books
    ensures r.1.Ok? ==>
              var k := FindBook(books, id).value;
              |r.0| == |books| - 1 && r.0 == books[..k] + books[k + 1..] && r.1.value == "Book deleted"
    ensures r.1.Ok? || r.1.NotFound?
  {
    match FindBook(books, id)
    case None => (books, NotFound("Book not found"))
    case Some(k) => (books[..k] + books[k + 1..], Ok("Book deleted"))
  }
}

=== FILE: catalog_props.dfy ===
/** What the book search and the book routes guarantee. */
module CatalogProperties {
  import opened Common
  import opened Models
  import opened Catalog

  /** The unique index on book_id. */
  predicate UniqueBookIds(books: seq<Book>)
  {
    forall i, j :: 0 <= i < j < |books| ==> books[i].book_id != books[j].book_id
  }

  /** Filtering a collection with unique ids leaves the ids unique. */
  lemma {:induction false} FilterKeepsUniqueIds(books: seq<Book>, p: Book -> bool)
    requires UniqueBookIds(books)
    ensures UniqueBookIds(Filter(books, p))
  {
    if books != [] {
      var rest := books[1..];
      FilterKeepsUniqueIds(rest, p);
      var tail := Filter(rest, p);
      if p(books[0]) {
        var r := Filter(books, p);
        assert r == [books[0]] + tail;
        forall j | 0 < j < |r| ensures r[j].book_id != books[0].book_id {
          assert r[j] == tail[j - 1] && tail[j - 1] in rest;
          var n :| 0 <= n < |rest| && rest[n] == tail[j - 1];
          assert rest[n] == books[n + 1];
        }
      }
    }
  }

  /** An id is listed after filtering exactly when a stored book with that id passes. */
  lemma IdsOfFilter(books: seq<Book>, p: Book -> bool, id: string)
    ensures id in BookIds(Filter(books, p)) <==> exists b :: b in books && b.book_id == id && p(b)
  {
    var kept := Filter(books, p);
    if id in BookIds(kept) {
      var k :| 0 <= k < |kept| && BookIds(kept)[k] == id;
      assert kept[k] in books;
    }
    if exists b :: b in books && b.book_id == id && p(b) {
      var b :| b in books && b.book_id == id && p(b);
      var k :| 0 <= k < |books| && books[k] == b;
      var j :| 0 <= j < |kept| && kept[j] == b;
      assert BookIds(kept)[j] == id;
    }
  }

  /** The /search id list has no repeats; with unique book ids it starts with exactly the
      title matches; and an id is in it exactly when a stored book with that id matches the
      text search or has an author whose name matches `q`. */
  lemma MatchedIdsSpec(p: SearchParams, books: seq<Book>, authors: seq<Author>, m: Matchers)
    requires UniqueBookIds(books)
    ensures var ids := MatchedIds(p, books, authors, m);
      && NoDuplicates(ids)
      && (Truthy(p.q) ==>
            var titleIds := BookIds(Filter(books, (b: Book) => m.text(p.q.value, b)));
            |titleIds| <= |ids| && ids[..|titleIds|] == titleIds)
      && (forall id :: id in ids <==>
            Truthy(p.q) &&
            exists b :: b in books && b.book_id == id &&
              (m.text(p.q.value, b) || AnyIn(b.author_ids, AuthorIdsNamed(authors, p.q.value, m))))
  {
    if Truthy(p.q) {
      var q := p.q.value;
      var byTitle := (b: Book) => m.text(q, b);
      var byAuthor := (b: Book) => AnyIn(b.author_ids, AuthorIdsNamed(authors, q, m));
      var titles := Filter(books, byTitle);
      FilterKeepsUniqueIds(books, byTitle);
      assert NoDuplicates(BookIds(titles));
      DedupeUnion(BookIds(titles), BookIds(Filter(books, byAuthor)));
      forall id
        ensures id in BookIds(titles) <==> exists b :: b in books && b.book_id == id && byTitle(b)
        ensures id in BookIds(Filter(books, byAuthor)) <==> exists b :: b in books && b.book_id == id && byAuthor(b)
      {
        IdsOfFilter(books, byTitle, id);
        IdsOfFilter(books, byAuthor, id);
      }
    }
  }

  /** The filters the search applies, stated from its parameters: a book is returned exactly
      when it is stored and passes each filter that was asked for. An empty id list and an
      `available` other than the exact string "true" add no filter. */
  lemma SearchFindsExactly(p: SearchParams, books: seq<Book>, authors: seq<Author>, m: Matchers, b: Book)
    ensures var ids := MatchedIds(p, books, authors, m);
      b in Find(books, QueryFor(p, books, authors, m), m) <==>
        && b in books
        && (|ids| > 0 ==> b.book_id in ids)
        && (Truthy(p.category) ==> m.regex(p.category.value, b.category))
        && (Truthy(p.author) ==> AnyIn(b.author_ids, AuthorIdsNamed(authors, p.author.value, m)))
        && (p.available == Some("true") ==> b.available)
  {
    var query := QueryFor(p, books, authors, m);
    var found := Find(books, query, m);
    if b in found {
      var k :| 0 <= k < |found| && found[k] == b;
    }
    if b in books && Matches(b, query, m) {
      var k :| 0 <= k < |books| && books[k] == b;
    }
  }

  /** A `q` that matches nothing leaves the other filters alone: with no other parameter,
      every stored book comes back. */
  lemma UnmatchedQueryDoesNotNarrow(p: SearchParams, books: seq<Book>, authors: seq<Author>, m: Matchers)
    requires MatchedIds(p, books, authors, m) == []
    requires !Truthy(p.category) && !Truthy(p.author) && p.available != Some("true")
    ensures Find(books, QueryFor(p, books, authors, m), m) == books
  {
    FilterAll(books, (b: Book) => Matches(b, QueryFor(p, books, authors, m), m));
  }

  /** No author's name matches, so no author id is collected. */
  lemma {:induction false} NoAuthorNamed(authors: seq<Author>, pattern: string, m: Matchers)
    requires forall a :: a in authors ==> !m.regex(pattern, a.name)
    ensures AuthorIdsNamed(authors, pattern, m) == []
  {
    if authors != [] {
      NoAuthorNamed(authors[1..], pattern, m);
    }
  }

  /** An `author` that names no stored author restricts to an empty id set: nothing is found. */
  lemma UnknownAuthorFindsNothing(p: SearchParams, books: seq<Book>, authors: seq<Author>, m: Matchers)
    requires Truthy(p.author)
    requires forall a :: a in authors ==> !m.regex(p.author.value, a.name)
    ensures Find(books, QueryFor(p, books, authors, m), m) == []
  {
    NoAuthorNamed(authors, p.author.value, m);
    FilterNone(books, (b: Book) => Matches(b, QueryFor(p, books, authors, m), m));
  }

  /** Book ids are unique per clock reading: two creations get the same id exactly when they
      happen in the same millisecond. */
  lemma BookIdsDifferByClock(m: nat, n: nat)
    ensures BookIdAt(m) == BookIdAt(n) <==> m == n
  {
    assert BookIdAt(m)[4..] == Decimal(m) && BookIdAt(n)[4..] == Decimal(n);
    DecimalInjective(m, n);
  }

  /** Creating a book keeps book ids unique. */
  lemma CreateKeepsUniqueIds(books: seq<Book>, input: BookInput, now: nat)
    requires UniqueBookIds(books)
    ensures UniqueBookIds(CreateBook(books, input, now).0)
  {
    var r := CreateBook(books, input, now);
    if r.1.Ok? {
      forall i, j | 0 <= i < j < |r.0| ensures r.0[i].book_id != r.0[j].book_id {
        if j < |books| {
          assert r.0[i] == books[i] && r.0[j] == books[j];
        } else {
          assert r.0[i] == books[i];
        }
      }
    }
  }

  /** Updating a book keeps its id, so book ids stay unique. */
  lemma UpdateKeepsUniqueIds(books: seq<Book>, id: string, input: BookInput)
    requires UniqueBookIds(books)
    ensures UniqueBookIds(UpdateBook(books, id, input).0)
  {
    var r := UpdateBook(books, id, input);
    forall i, j | 0 <= i < j < |r.0| ensures r.0[i].book_id != r.0[j].book_id {
      assert r.0[i].book_id == books[i].book_id && r.0[j].book_id == books[j].book_id;
    }
  }

  /** PUT does not run the schema's validators: a negative price is stored as given. */
  lemma UpdateSkipsValidation()
    ensures var books := [Book("B1", "T", "C", 5.0, true, "P1", [])];
            var r := UpdateBook(books, "B1", BookInput(None, None, Some(-1.0), None, None, None));
            && ValidBook(books[0])
            && r.1.Ok? && !ValidBook(r.0[0])
  {
  }
}

=== FILE: common.dfy ===
/** Small building blocks shared by the backend and frontend models. */
module Common {

  datatype Option<+T> = None | Some(value: T)

  /** ECMAScript WhiteSpace and LineTerminator code points: what String.prototype.trim strips. */
  predicate IsWhitespace(c: char)
  {
    var n := c as int;
    (0x09 <= n <= 0x0D) || n == 0x20 || n == 0xA0 || n == 0x1680 ||
    (0x2000 <= n <= 0x200A) || n == 0x2028 || n == 0x2029 || n == 0x202F ||
    n == 0x205F || n == 0x3000 || n == 0xFEFF
  }

  /** A string made only of whitespace (the empty string included). */
  predicate IsBlank(s: string)
  {
    forall k :: 0 <= k < |s| ==> IsWhitespace(s[k])
  }

  function TrimStart(s: string): (r: string)
    ensures |r| <= |s| && r == s[|s| - |r|..]
    ensures r == "" || !IsWhitespace(r[0])
    ensures IsBlank(s[..|s| - |r|])
  {
    if s == [] || !IsWhitespace(s[0]) then s
    else
      var r := TrimStart(s[1..]);
      assert s[1..][..|s| - 1 - |r|] == s[1..|s| - |r|];
      r
  }

  function TrimEnd(s: string): (r: string)
    ensures |r| <= |s| && r == s[..|r|]
    ensures r == "" || !IsWhitespace(r[|r| - 1])
    ensures IsBlank(s[|r|..])
  {
    if s == [] || !IsWhitespace(s[|s| - 1]) then s
    else
      var r := TrimEnd(s[..|s| - 1]);
      assert s[..|s| - 1][|r|..] == s[|r|..|s| - 1];
      r
  }

  /** String.prototype.trim: whitespace removed from both ends. */
  function Trim(s: string): (r: string)
    ensures r == "" || (!IsWhitespace(r[0]) && !IsWhitespace(r[|r| - 1]))
  {
    TrimEnd(TrimStart(s))
  }

  /** The trim is a slice of s, and what is cut off either side is blank. */
  lemma TrimSlice(s: string)
    ensures var r := Trim(s);
      exists a :: 0 <= a <= |s| - |r| && r == s[a..a + |r|] && IsBlank(s[..a]) && IsBlank(s[a + |r|..])
  {
    var t := TrimStart(s);
    var r := TrimEnd(t);
    var a := |s| - |t|;
    assert r == s[a..a + |r|] && IsBlank(s[..a]);
    assert s[a + |r|..] == t[|r|..];
  }

  /** `s.trim() !== ''` holds exactly when s has a non-whitespace character. */
  lemma TrimEmptyIffBlank(s: string)
    ensures Trim(s) == "" <==> IsBlank(s)
  {
    var t := TrimStart(s);
    if !IsBlank(s) {
      var k :| 0 <= k < |s| && !IsWhitespace(s[k]);
      assert t != "";
    }
  }

  /** The decimal rendering of a natural number, as a template literal prints it. */
  function Decimal(n: nat): (r: string)
    ensures |r| >= 1
  {
    if n < 10 then [DigitChar(n)] else Decimal(n / 10) + [DigitChar(n % 10)]
  }

  function DigitChar(d: nat): char
    requires d < 10
  {
    ('0' as int + d) as char
  }

  predicate IsDigit(c: char)
  {
    '0' <= c <= '9'
  }

  predicate AllDigits(s: string)
  {
    forall k :: 0 <= k < |s| ==> IsDigit(s[k])
  }

  /** The value of a run of decimal digits. */
  function DigitsValue(s: string): (n: nat)
    requires AllDigits(s)
  {
    if s == [] then 0 else DigitsValue(s[..|s| - 1]) * 10 + (s[|s| - 1] as int - '0' as int)
  }

  lemma {:induction false} DecimalDigits(n: nat)
    ensures AllDigits(Decimal(n)) && DigitsValue(Decimal(n)) == n
  {
    if n >= 10 {
      DecimalDigits(n / 10);
      var d := Decimal(n);
      assert d[..|d| - 1] == Decimal(n / 10);
    }
  }

  /** Different numbers print differently. */
  lemma DecimalInjective(m: nat, n: nat)
    ensures Decimal(m) == Decimal(n) <==> m == n
  {
    DecimalDigits(m);
    DecimalDigits(n);
  }

  /** Keeps the first occurrence of every element, in order: `[...new Set(s)]`. */
  function Dedupe<T(==)>(s: seq<T>): (r: seq<T>)
    ensures NoDuplicates(r)
    ensures forall k :: 0 <= k < |s| ==> s[k] in r
    ensures forall k :: 0 <= k < |r| ==> r[k] in s
  {
    DedupeFromEmpty(s);
    DedupeInto([], s)
  }

  lemma DedupeFromEmpty<T>(s: seq<T>)
    ensures NoDuplicates(DedupeInto([], s))
    ensures forall k :: 0 <= k < |s| ==> s[k] in DedupeInto([], s)
    ensures forall k :: 0 <= k < |DedupeInto([], s)| ==> DedupeInto([], s)[k] in s
  {
    DedupeIntoSpec([], s);
    var d := DedupeInto([], s);
    forall k | 0 <= k < |d| ensures d[k] in s {
      DedupeMember(s, d[k]);
    }
  }

  lemma DedupeMember<T>(s: seq<T>, x: T)
    ensures x in DedupeInto([], s) <==> x in s
  {
    DedupeIntoSpec([], s);
  }

  function DedupeInto<T(==)>(acc: seq<T>, s: seq<T>): (r: seq<T>)
    decreases |s|
  {
    if s == [] then acc
    else if s[0] in acc then DedupeInto(acc, s[1..])
    else DedupeInto(acc + [s[0]], s[1..])
  }

  predicate NoDuplicates<T(==)>(s: seq<T>)
  {
    forall i, j :: 0 <= i < j < |s| ==> s[i] != s[j]
  }

  /** Deduplication keeps what it has, adds every new element once, and adds nothing else. */
  lemma {:induction false} DedupeIntoSpec<T>(acc: seq<T>, s: seq<T>)
    requires NoDuplicates(acc)
    ensures var r := DedupeInto(acc, s);
      && NoDuplicates(r)
      && |acc| <= |r| && r[..|acc|] == acc
      && (forall x :: x in r <==> x in acc || x in s)
    decreases |s|
  {
    if s != [] {
      if s[0] in acc {
        DedupeIntoSpec(acc, s[1..]);
      } else {
        var acc' := acc + [s[0]];
        DedupeIntoSpec(acc', s[1..]);
        var r := DedupeInto(acc', s[1..]);
        assert r[..|acc|] == r[..|acc'|][..|acc|];
      }
      forall x ensures x in s <==> x == s[0] || x in s[1..] {
        assert s == [s[0]] + s[1..];
      }
    }
  }

  /** Deduplicating a concatenation is deduplicating its second part into the first's result. */
  lemma {:induction false} DedupeIntoConcat<T>(acc: seq<T>, a: seq<T>, b: seq<T>)
    ensures DedupeInto(acc, a + b) == DedupeInto(DedupeInto(acc, a), b)
    decreases |a|
  {
    if a != [] {
      assert (a + b)[0] == a[0] && (a + b)[1..] == a[1..] + b;
      if a[0] in acc {
        DedupeIntoConcat(acc, a[1..], b);
      } else {
        DedupeIntoConcat(acc + [a[0]], a[1..], b);
      }
    } else {
      assert a + b == b;
    }
  }

  /** A list without duplicates is its own deduplication. */
  lemma {:induction false} DedupeIntoDistinct<T>(acc: seq<T>, s: seq<T>)
    requires NoDuplicates(acc + s)
    ensures DedupeInto(acc, s) == acc + s
    decreases |s|
  {
    if s != [] {
      assert (acc + s)[|acc|] == s[0];
      forall i | 0 <= i < |acc| ensures acc[i] != s[0] {
        assert (acc + s)[i] == acc[i];
      }
      assert (acc + [s[0]]) + s[1..] == acc + s;
      DedupeIntoDistinct(acc + [s[0]], s[1..]);
    }
  }

  /** `[...new Set([...a, ...b])]` for a duplicate-free `a`: all of `a`, then the new elements of
      `b` once each in their order of first appearance, and no duplicates overall. */
  lemma DedupeUnion<T>(a: seq<T>, b: seq<T>)
    requires NoDuplicates(a)
    ensures var r := Dedupe(a + b);
      && r == DedupeInto(a, b)
      && NoDuplicates(r)
      && |a| <= |r| && r[..|a|] == a
      && (forall x :: x in r <==> x in a || x in b)
  {
    DedupeIntoConcat([], a, b);
    assert [] + a == a;
    DedupeIntoDistinct([], a);
    DedupeIntoSpec(a, b);
  }

  /** `s.filter(p)`: the elements satisfying p, in their original order. */
  function Filter<T>(s: seq<T>, p: T -> bool): (r: seq<T>)
    ensures |r| <= |s|
    ensures forall k :: 0 <= k < |r| ==> r[k] in s && p(r[k])
    ensures forall k :: 0 <= k < |s| && p(s[k]) ==> s[k] in r
  {
    if s == [] then []
    else (if p(s[0]) then [s[0]] else []) + Filter(s[1..], p)
  }

  /** Filtering distributes over concatenation, which pins down the order it keeps. */
  lemma {:induction false} FilterConcat<T>(a: seq<T>, b: seq<T>, p: T -> bool)
    ensures Filter(a + b, p) == Filter(a, p) + Filter(b, p)
  {
    if a != [] {
      assert (a + b)[0] == a[0] && (a + b)[1..] == a[1..] + b;
      FilterConcat(a[1..], b, p);
    } else {
      assert a + b == b;
    }
  }

  /** Elements that all pass are all kept. */
  lemma {:induction false} FilterAll<T>(s: seq<T>, p: T -> bool)
    requires forall k :: 0 <= k < |s| ==> p(s[k])
    ensures Filter(s, p) == s
  {
    if s != [] {
      FilterAll(s[1..], p);
    }
  }

  /** Nothing passes, nothing is kept. */
  lemma {:induction false} FilterNone<T>(s: seq<T>, p: T -> bool)
    requires forall k :: 0 <= k < |s| ==> !p(s[k])
    ensures Filter(s, p) == []
  {
    if s != [] {
      FilterNone(s[1..], p);
    }
  }
}

=== FILE: contacts.dfy ===
/** The contact-number list editor shared by the publication, student and author forms:
    add a blank row, edit a row, remove a row (never the last one), normalise what is
    loaded, and drop blank rows on submit. */
module ContactList {
  import opened Common

  /** `[...contact_numbers, '']`. */
  function AddContact(contacts: seq<string>): (r: seq<string>)
    ensures |r| == |contacts| + 1 && r[..|contacts|] == contacts && r[|contacts|] == ""
  {
    contacts + [""]
  }

  /** handleContactChange: copy the list and write one slot of the copy. The index is
      always that of a rendered row. */
  method ChangeContact(contacts: seq<string>, index: nat, value: string) returns (updated: seq<string>)
    requires index < |contacts|
    ensures |updated| == |contacts|
    ensures updated[index] == value
    ensures forall k :: 0 <= k < |contacts| && k != index ==> updated[k] == contacts[k]
  {
    var copy := new string[|contacts|](k requires 0 <= k < |contacts| => contacts[k]);
    copy[index] := value;
    updated := copy[..];
  }

  /** removeContact: when more than one row is left, copy the list and splice one row out
      of the copy (a splice past the end removes nothing); otherwise leave it alone. */
  method RemoveContact(contacts: seq<string>, index: nat) returns (updated: seq<string>)
    ensures |contacts| > 1 && index < |contacts| ==> updated == contacts[..index] + contacts[index + 1..]
    ensures !(|contacts| > 1 && index < |contacts|) ==> updated == contacts
    ensures |contacts| >= 1 ==> |updated| >= 1
  {
    updated := contacts;
    if |contacts| > 1 && index < |contacts| {
      var copy := new string[|contacts|](k requires 0 <= k < |contacts| => contacts[k]);
      // splice(index, 1): shift the tail left by one, then drop the last slot.
      var k := index;
      while k + 1 < copy.Length
        invariant index <= k < copy.Length
        invariant copy[..index] == contacts[..index]
        invariant copy[index..k] == contacts[index + 1..k + 1]
        invariant copy[k..] == contacts[k..]
      {
        copy[k] := copy[k + 1];
        k := k + 1;
      }
      updated := copy[..copy.Length - 1];
    }
  }

  /** On load: `contact_numbers.length ? contact_numbers : ['']`. */
  function Normalise(loaded: seq<string>): (r: seq<string>)
    ensures |r| >= 1
    ensures loaded != [] ==> r == loaded
    ensures loaded == [] ==> r == [""]
  {
    if |loaded| > 0 then loaded else [""]
  }

  predicate Filled(c: string)
  {
    Trim(c) != ""
  }

  /** On submit: `contact_numbers.filter(num => num.trim() !== '')`. */
  function Submitted(contacts: seq<string>): (r: seq<string>)
    ensures |r| <= |contacts|
    ensures forall k :: 0 <= k < |r| ==> r[k] in contacts && Filled(r[k])
    ensures forall k :: 0 <= k < |contacts| && Filled(contacts[k]) ==> contacts[k] in r
  {
    Filter(contacts, Filled)
  }

  /** The submitted list holds exactly the rows with a non-whitespace character, and keeps
      their order: it splits over any cut of the list. */
  lemma SubmittedSpec(contacts: seq<string>, more: seq<string>)
    ensures forall k :: 0 <= k < |Submitted(contacts)| ==>
              Submitted(contacts)[k] in contacts && !IsBlank(Submitted(contacts)[k])
    ensures forall k :: 0 <= k < |contacts| && !IsBlank(contacts[k]) ==> contacts[k] in Submitted(contacts)
    ensures Submitted(contacts + more) == Submitted(contacts) + Submitted(more)
  {
    forall c: string ensures Filled(c) <==> !IsBlank(c) {
      TrimEmptyIffBlank(c);
    }
    FilterConcat(contacts, more, Filled);
  }

  /** Submitting twice filters nothing more. */
  lemma {:induction false} SubmittedIdempotent(contacts: seq<string>)
    ensures Submitted(Submitted(contacts)) == Submitted(contacts)
  {
    var r := Submitted(contacts);
    FilterAll(r, Filled);
  }

  /** A blank row added by AddContact, or the blank row put in by Normalise, never
      reaches the payload. */
  lemma BlankRowsAreNotSubmitted(contacts: seq<string>)
    ensures Submitted(AddContact(contacts)) == Submitted(contacts)
    ensures Submitted(Normalise(contacts)) == Submitted(contacts)
  {
    assert Trim("") == "";
    FilterConcat(contacts, [""], Filled);
    assert Filter([""], Filled) == [];
  }
}

=== FILE: fine.dfy ===
/** The fine owed for an issue: one currency unit per started day past the due date. */
module FinePolicy {
  import opened Common

  /** Milliseconds in a day (1000 * 60 * 60 * 24). */
  const DayMs: int := 86_400_000

  /** Currency units charged per day late. */
  const FinePerDay: int := 1

  /** `Math.ceil(late / DayMs)` for a positive number of milliseconds late. Integer
      arithmetic is exact here, as is the source's floating-point division for any
      difference of realistic timestamps. */
  function DaysLate(late: int): (days: int)
    requires late > 0
    ensures days >= 1
    ensures (days - 1) * DayMs < late <= days * DayMs
  {
    (late + DayMs - 1) / DayMs
  }

  /** calculateFine(due_date, return_date): nothing when the book has not come back or
      came back on or before the due instant, otherwise the started days late times the rate. */
  function Fine(due: int, returned: Option<int>): (fine: nat)
    ensures returned.None? || returned.value <= due ==> fine == 0
    ensures returned.Some? && returned.value > due ==>
              fine >= 1 &&
              (fine - 1) * DayMs < returned.value - due <= fine * DayMs
  {
    if returned.None? || returned.value <= due then 0
    else DaysLate(returned.value - due) * FinePerDay
  }

  /** The fine never decreases as the return moves later. */
  lemma FineMonotonic(due: int, r1: int, r2: int)
    requires r1 <= r2
    ensures Fine(due, Some(r1)) <= Fine(due, Some(r2))
  {
  }

  /** Each further whole day late adds exactly one day's rate. */
  lemma FineGrowsByDay(due: int, returned: int)
    requires returned > due
    ensures Fine(due, Some(returned + DayMs)) == Fine(due, Some(returned)) + FinePerDay
  {
    var f, g := Fine(due, Some(returned)), Fine(due, Some(returned + DayMs));
    assert (g - 2) * DayMs < returned - due <= (g - 1) * DayMs;
  }

  /** Worked values: on time is free, one millisecond or exactly one day late costs one
      unit, a day and a half late costs two. */
  lemma FineExamples(due: int)
    ensures Fine(due, None) == 0
    ensures Fine(due, Some(due)) == 0
    ensures Fine(due, Some(due - 1000)) == 0
    ensures Fine(due, Some(due + 1)) == 1
    ensures Fine(due, Some(due + 1000)) == 1
    ensures Fine(due, Some(due + DayMs)) == 1
    ensures Fine(due, Some(due + 36 * 60 * 60 * 1000)) == 2
  {
  }
}

=== FILE: forms.dfy ===
/** What the publication, student and author forms load into their drafts and send on
    submit. The publication form and the dashboard are the same component. */
module ContactForms {
  import opened Common
  import opened Models
  import opened ContactList

  /** The result of JavaScript's `Number(text)` as far as this model computes it: an
      integer, or a value it leaves unevaluated (fractions, exponents, hex, NaN). */
  datatype JsNumber = Int(value: int) | Unevaluated

  /** `Number(text)`: surrounding whitespace is ignored, a blank text is 0, and an
      optionally signed run of decimal digits is that integer. */
  function ToNumber(text: string): (r: JsNumber)
    ensures IsBlank(text) ==> r == Int(0)
    ensures r.Int? && !IsBlank(text) ==>
              var t := Trim(text);
              (AllDigits(t) && r.value == DigitsValue(t)) ||
              (|t| > 1 && (t[0] == '-' || t[0] == '+') && AllDigits(t[1..]) &&
               r.value == (if t[0] == '-' then -(DigitsValue(t[1..]) as int) else DigitsValue(t[1..])))
  {
    TrimEmptyIffBlank(text);
    var t := Trim(text);
    if t == "" then Int(0)
    else if |t| > 1 && t[0] == '-' && AllDigits(t[1..]) then Int(-(DigitsValue(t[1..]) as int))
    else if |t| > 1 && t[0] == '+' && AllDigits(t[1..]) then Int(DigitsValue(t[1..]))
    else if AllDigits(t) then Int(DigitsValue(t))
    else Unevaluated
  }

  /** How a number is shown in a text input: `String(n)` for an integer. */
  function IntText(n: int): (r: string)
    ensures |r| >= 1
  {
    if n < 0 then "-" + Decimal(-n) else Decimal(n)
  }

  /** A string that neither starts nor ends with whitespace is its own trim. */
  lemma TrimUnpadded(s: string)
    requires s != [] && !IsWhitespace(s[0]) && !IsWhitespace(s[|s| - 1])
    ensures Trim(s) == s
  {
  }

  /** A run of digits reads as its value. */
  lemma NumberOfDigits(t: string)
    requires t != [] && AllDigits(t)
    ensures ToNumber(t) == Int(DigitsValue(t))
  {
    assert IsDigit(t[0]) && IsDigit(t[|t| - 1]);
    TrimUnpadded(t);
    TrimEmptyIffBlank(t);
  }

  /** A minus sign before a run of digits reads as the negated value. */
  lemma NumberOfNegated(d: string)
    requires d != [] && AllDigits(d)
    ensures ToNumber("-" + d) == Int(-(DigitsValue(d) as int))
  {
    var t := "-" + d;
    assert t[1..] == d && t[0] == '-';
    assert IsDigit(t[|t| - 1]);
    TrimUnpadded(t);
  }

  /** Reading back the text of an integer gives that integer. */
  lemma NumberOfIntText(n: int)
    ensures ToNumber(IntText(n)) == Int(n)
  {
    var m := if n < 0 then -n else n;
    DecimalDigits(m);
    if n < 0 {
      NumberOfNegated(Decimal(m));
    } else {
      NumberOfDigits(Decimal(m));
    }
  }

  // ----- Student form -----

  /** The semester field holds the loaded number until the user types over it. */
  datatype SemesterField = Loaded(n: int) | Typed(text: string)

  /** `Number(semester)` on submit: the loaded number itself, or the typed text read as a
      number, 0 when it is blank. */
  function SemesterNumber(field: SemesterField): (r: JsNumber)
    ensures field.Loaded? ==> r == Int(field.n)
    ensures field.Typed? ==> r == ToNumber(field.text)
    ensures field.Typed? && IsBlank(field.text) ==> r == Int(0)
  {
    match field
    case Loaded(n) => Int(n)
    case Typed(text) => ToNumber(text)
  }

  datatype Student = Student(student_id: string, name: string, semester: int, address: string,
                             contact_numbers: seq<string>)

  datatype StudentDraft = StudentDraft(name: string, semester: SemesterField, address: string,
                                       contact_numbers: seq<string>)

  datatype StudentPayload = StudentPayload(name: string, semester: JsNumber, address: string,
                                           contact_numbers: seq<string>)

  /** The empty form: `{ name: '', semester: '', address: '', contact_numbers: [''] }`. */
  const EmptyStudent := StudentDraft("", Typed(""), "", [""])

  function LoadStudent(s: Student): (d: StudentDraft)
    ensures |d.contact_numbers| >= 1 && d.contact_numbers == Normalise(s.contact_numbers)
    ensures d.name == s.name && d.address == s.address && d.semester == Loaded(s.semester)
  {
    StudentDraft(s.name, Loaded(s.semester), s.address, Normalise(s.contact_numbers))
  }

  function SubmitStudent(d: StudentDraft): (p: StudentPayload)
    ensures p.name == d.name && p.address == d.address && p.semester == SemesterNumber(d.semester)
    ensures p.contact_numbers == Submitted(d.contact_numbers)
    ensures forall k :: 0 <= k < |p.contact_numbers| ==> !IsBlank(p.contact_numbers[k])
  {
    SubmittedSpec(d.contact_numbers, []);
    StudentPayload(d.name, SemesterNumber(d.semester), d.address, Submitted(d.contact_numbers))
  }

  /** `addAddress`: the contact list is replaced by the address spread into one-character
      strings, followed by a blank row. */
  function AddAddress(d: StudentDraft): (r: StudentDraft)
    ensures r.name == d.name && r.semester == d.semester && r.address == d.address
    ensures |r.contact_numbers| == |d.address| + 1 && r.contact_numbers[|d.address|] == ""
    ensures forall k :: 0 <= k < |d.address| ==> r.contact_numbers[k] == [d.address[k]]
  {
    d.(contact_numbers := Characters(d.address) + [""])
  }

  /** `[...s]`: a string spread into its characters, each a string of its own. */
  function Characters(s: string): (r: seq<string>)
    ensures |r| == |s| && forall k :: 0 <= k < |s| ==> r[k] == [s[k]]
  {
    if s == [] then [] else [[s[0]]] + Characters(s[1..])
  }

  predicate NotSpace(c: char)
  {
    !IsWhitespace(c)
  }

  /** A one-character row is submitted exactly when that character is not whitespace. */
  lemma CharacterSubmitted(c: char)
    ensures Submitted(Characters([c])) == Characters(Filter([c], NotSpace))
  {
    assert Characters([c]) == [[c]];
    TrimEmptyIffBlank([c]);
    assert IsBlank([c]) <==> IsWhitespace(c);
    assert Filter([c], NotSpace) == if NotSpace(c) then [c] else [];
  }

  lemma {:induction false} CharactersSubmitted(s: string)
    ensures Submitted(Characters(s)) == Characters(Filter(s, NotSpace))
  {
    if s != [] {
      var fx, ft := Filter([s[0]], NotSpace), Filter(s[1..], NotSpace);
      SplitHead(s);
      CharacterSubmitted(s[0]);
      CharactersSubmitted(s[1..]);
      CharactersConcat(fx, ft);
    }
  }

  lemma SplitHead(s: string)
    requires s != []
    ensures Submitted(Characters(s)) == Submitted(Characters([s[0]])) + Submitted(Characters(s[1..]))
    ensures Filter(s, NotSpace) == Filter([s[0]], NotSpace) + Filter(s[1..], NotSpace)
  {
    assert s == [s[0]] + s[1..];
    assert Characters(s) == Characters([s[0]]) + Characters(s[1..]);
    FilterConcat(Characters([s[0]]), Characters(s[1..]), Filled);
    FilterConcat([s[0]], s[1..], NotSpace);
  }

  lemma CharactersConcat(a: string, b: string)
    ensures Characters(a + b) == Characters(a) + Characters(b)
  {
    assert forall k :: 0 <= k < |a + b| ==> Characters(a + b)[k] == (Characters(a) + Characters(b))[k];
  }

  /** After `addAddress`, saving sends every non-whitespace character of the address as a
      contact number of its own, in order, and nothing else. */
  lemma AddAddressSubmitsAddressCharacters(d: StudentDraft)
    ensures SubmitStudent(AddAddress(d)).contact_numbers == Characters(Filter(d.address, NotSpace))
  {
    BlankRowsAreNotSubmitted(Characters(d.address));
    CharactersSubmitted(d.address);
  }

  /** Opening a stored student and saving it unchanged sends back its name, semester and
      address, and its contact numbers without the blank ones. */
  lemma StudentLoadSubmit(s: Student)
    ensures SubmitStudent(LoadStudent(s)) ==
            StudentPayload(s.name, Int(s.semester), s.address, Submitted(s.contact_numbers))
  {
    BlankRowsAreNotSubmitted(s.contact_numbers);
  }

  /** Typing a semester back in as it is displayed leaves the payload the same. */
  lemma RetypedSemesterKeepsPayload(s: Student)
    ensures SubmitStudent(LoadStudent(s).(semester := Typed(IntText(s.semester)))) ==
            SubmitStudent(LoadStudent(s))
  {
    NumberOfIntText(s.semester);
  }

  // ----- Publication form (and the dashboard, which is a copy of it) -----

  datatype PublicationDraft = PublicationDraft(name: string, address: string, contact_numbers: seq<string>)

  datatype PublicationPayload = PublicationPayload(name: string, address: string, contact_numbers: seq<string>)

  const EmptyPublication := PublicationDraft("", "", [""])

  function LoadPublication(p: Publication): (d: PublicationDraft)
    ensures |d.contact_numbers| >= 1 && d.contact_numbers == Normalise(p.contact_numbers)
    ensures d.name == p.name && d.address == p.address
  {
    PublicationDraft(p.name, p.address, Normalise(p.contact_numbers))
  }

  function SubmitPublication(d: PublicationDraft): (p: PublicationPayload)
    ensures p.name == d.name && p.address == d.address
    ensures p.contact_numbers == Submitted(d.contact_numbers)
    ensures forall k :: 0 <= k < |p.contact_numbers| ==> !IsBlank(p.contact_numbers[k])
  {
    SubmittedSpec(d.contact_numbers, []);
    PublicationPayload(d.name, d.address, Submitted(d.contact_numbers))
  }

  /** The record a payload becomes once it is stored under an id. */
  function StoredPublication(id: string, p: PublicationPayload): Publication
  {
    Publication(id, p.name, p.address, p.contact_numbers)
  }

  /** Saving a draft, reopening the stored record and saving again sends the same payload:
      the form reaches a fixed point after one save. */
  lemma PublicationSaveIsStable(id: string, d: PublicationDraft)
    ensures SubmitPublication(LoadPublication(StoredPublication(id, SubmitPublication(d)))) ==
            SubmitPublication(d)
  {
    var c := Submitted(d.contact_numbers);
    BlankRowsAreNotSubmitted(c);
    SubmittedIdempotent(d.contact_numbers);
  }

  // ----- Author form -----

  datatype AuthorDraft = AuthorDraft(name: string, contact_numbers: seq<string>)

  datatype AuthorPayload = AuthorPayload(name: string, contact_numbers: seq<string>)

  const EmptyAuthor := AuthorDraft("", [""])

  function LoadAuthor(a: Author): (d: AuthorDraft)
    ensures |d.contact_numbers| >= 1 && d.contact_numbers == Normalise(a.contact_numbers)
    ensures d.name == a.name
  {
    AuthorDraft(a.name, Normalise(a.contact_numbers))
  }

  function SubmitAuthor(d: AuthorDraft): (p: AuthorPayload)
    ensures p.name == d.name
    ensures p.contact_numbers == Submitted(d.contact_numbers)
    ensures forall k :: 0 <= k < |p.contact_numbers| ==> !IsBlank(p.contact_numbers[k])
  {
    SubmittedSpec(d.contact_numbers, []);
    AuthorPayload(d.name, Submitted(d.contact_numbers))
  }

  /** A stored author whose contact numbers are all filled in comes back unchanged when
      opened and saved without edits. */
  lemma AuthorLoadSubmit(a: Author)
    requires forall k :: 0 <= k < |a.contact_numbers| ==> !IsBlank(a.contact_numbers[k])
    ensures SubmitAuthor(LoadAuthor(a)) == AuthorPayload(a.name, a.contact_numbers)
  {
    BlankRowsAreNotSubmitted(a.contact_numbers);
    forall k | 0 <= k < |a.contact_numbers| ensures Filled(a.contact_numbers[k]) {
      TrimEmptyIffBlank(a.contact_numbers[k]);
    }
    FilterAll(a.contact_numbers, Filled);
  }
}

=== FILE: issue_list.dfy ===
/** The issue table of the frontend: status colour and label, fine cell, Return button,
    and the update of the table after a return. */
module IssueListView {
  import opened Common
  import opened Models
  import opened FinePolicy
  import opened Ledger

  datatype StatusColor = Green | Red | Amber | Blue

  datatype StatusLabel = ReturnedLabel | OverdueLabel | ActiveLabel

  /** The fine cell: the amount in red, or "$0.00". */
  datatype FineCell = Charged(amount: int) | NoFine

  const ThreeDaysMs: int := 3 * 24 * 60 * 60 * 1000

  /** getStatusColor at time `today`. */
  function StatusColorOf(i: Issue, today: int): (c: StatusColor)
    ensures c == Green <==> i.return_date.Some?
    ensures c == Red <==> IsOpen(i) && i.due_date < today
    ensures c == Amber <==> IsOpen(i) && today <= i.due_date && i.due_date - today < ThreeDaysMs
    ensures c == Blue <==> IsOpen(i) && i.due_date - today >= ThreeDaysMs
  {
    if i.return_date.Some? then Green
    else if i.due_date < today then Red
    else if i.due_date - today < ThreeDaysMs then Amber
    else Blue
  }

  /** The status text at time `now`. */
  function StatusLabelOf(i: Issue, now: int): (l: StatusLabel)
    ensures l == ReturnedLabel <==> i.return_date.Some?
    ensures l == OverdueLabel <==> IsOpen(i) && i.due_date < now
  {
    if i.return_date.Some? then ReturnedLabel
    else if i.due_date < now then OverdueLabel
    else ActiveLabel
  }

  function FineCellOf(fine: int): (c: FineCell)
    ensures c.Charged? <==> fine > 0
    ensures c.Charged? ==> c.amount == fine
  {
    if fine > 0 then Charged(fine) else NoFine
  }

  /** The Return button is shown only for issues without a return date. */
  predicate ReturnOffered(i: Issue)
  {
    i.return_date.None?
  }

  /** The colour and the label, computed by separate conditions, agree: green is
      "Returned", red is "Overdue", amber and blue are both "Active". */
  lemma ColorAgreesWithLabel(i: Issue, now: int)
    ensures StatusColorOf(i, now) == Green <==> StatusLabelOf(i, now) == ReturnedLabel
    ensures StatusColorOf(i, now) == Red <==> StatusLabelOf(i, now) == OverdueLabel
    ensures StatusColorOf(i, now) in {Amber, Blue} <==> StatusLabelOf(i, now) == ActiveLabel
  {
  }

  /** handleReturn: the entries with the returned id take the server's answer over their
      own fields; every other entry, and the length, stay as they were. */
  function MergeReturned(entries: seq<IssueView>, issue_id: string, answer: Issue): (r: seq<IssueView>)
    ensures |r| == |entries|
    ensures forall k :: 0 <= k < |r| ==>
              r[k] == if entries[k].issue.issue_id == issue_id then entries[k].(issue := answer) else entries[k]
  {
    seq(|entries|, k requires 0 <= k < |entries| =>
      if entries[k].issue.issue_id == issue_id then entries[k].(issue := answer) else entries[k])
  }

  /** Every open issue in the listing shows "$0.00", since its fine is recomputed as 0. */
  lemma OpenIssuesShowNoFine(s: LedgerState)
    ensures forall k :: 0 <= k < |s.issues| && IsOpen(s.issues[k]) ==>
              FineCellOf(Listing(s)[k].issue.fine) == NoFine && ReturnOffered(Listing(s)[k].issue)
  {
  }

  /** After a successful return, the table updated in place shows the same issues as a
      fresh listing would: the returned row is green, labelled "Returned", carries the
      recomputed fine and no longer offers Return. (The book shown with it keeps the
      availability it had before the return.) */
  lemma MergeMatchesRefetch(s: LedgerState, issue_id: string, returned: int, now: int)
    requires UniqueIssueIds(s.issues)
    requires ReturnStep(s, issue_id, Some(returned)).1.Updated?
    ensures var r := ReturnStep(s, issue_id, Some(returned));
            var merged := MergeReturned(Listing(s), issue_id, r.1.issue);
            var refetched := Listing(r.0);
            var k := FindIssue(s.issues, issue_id).value;
            && |merged| == |refetched|
            && (forall j :: 0 <= j < |merged| ==> merged[j].issue == refetched[j].issue)
            && StatusColorOf(merged[k].issue, now) == Green
            && StatusLabelOf(merged[k].issue, now) == ReturnedLabel
            && !ReturnOffered(merged[k].issue)
            && merged[k].issue.fine == Fine(s.issues[k].due_date, Some(returned))
  {
    var r := ReturnStep(s, issue_id, Some(returned));
    var k := FindIssue(s.issues, issue_id).value;
    forall j | 0 <= j < |s.issues| && j != k ensures s.issues[j].issue_id != issue_id {
      if j < k {
      } else {
        assert s.issues[k].issue_id != s.issues[j].issue_id;
      }
    }
  }
}

=== FILE: ledger.dfy ===
/** The loan ledger behind the issue routes: issuing a book (POST), returning it (PUT) and
    listing issues with their fines (GET). The two collections it touches are the issue
    collection, kept in store order, and the book collection, looked up by book_id. */
module Ledger {
  import opened Common
  import opened Models
  import opened FinePolicy

  /** The body of an issue request; a date is None when it is missing or cannot be cast. */
  datatype IssueRequest = IssueRequest(
    student_id: string,
    book_id: string,
    issue_date: Option<int>,
    due_date: Option<int>)

  /** What a handler answers: 201 with the new issue, 200 with the updated issue, 400 or 404. */
  datatype Response =
    | Created(issue: Issue)
    | Updated(issue: Issue)
    | BadRequest(error: string)
    | NotFound(error: string)

  datatype LedgerState = LedgerState(issues: seq<Issue>, books: map<string, Book>)

  /** One entry of GET /api/issues: the stored issue with its fine recomputed, and its book. */
  datatype IssueView = IssueView(issue: Issue, book: Option<Book>)

  /** Each book is filed under its own book_id. */
  predicate Indexed(books: map<string, Book>)
  {
    forall id :: id in books ==> books[id].book_id == id
  }

  /** The unique index on issue_id. */
  predicate UniqueIssueIds(issues: seq<Issue>)
  {
    forall i, j :: 0 <= i < j < |issues| ==> issues[i].issue_id != issues[j].issue_id
  }

  /** Every stored fine agrees with the fine policy applied to the stored dates. */
  predicate FinesCurrent(issues: seq<Issue>)
  {
    forall i :: 0 <= i < |issues| ==> issues[i].fine == Fine(issues[i].due_date, issues[i].return_date)
  }

  /** The facts every handler keeps. */
  predicate Wellformed(s: LedgerState)
  {
    Indexed(s.books) && UniqueIssueIds(s.issues) && FinesCurrent(s.issues)
  }

  predicate IdTaken(issues: seq<Issue>, id: string)
  {
    exists j :: 0 <= j < |issues| && issues[j].issue_id == id
  }

  /** `ISS${Date.now()}`. */
  function IssueIdAt(now: nat): (id: string)
    ensures |id| > 3 && id[..3] == "ISS" && AllDigits(id[3..])
  {
    DecimalDigits(now);
    assert ("ISS" + Decimal(now))[3..] == Decimal(now);
    "ISS" + Decimal(now)
  }

  /** `findOne({ issue_id })`: the position of the first issue with that id. */
  function FindIssue(issues: seq<Issue>, id: string): (k: Option<nat>)
    ensures k.None? <==> !IdTaken(issues, id)
    ensures k.Some? ==>
              k.value < |issues| && issues[k.value].issue_id == id &&
              forall j :: 0 <= j < k.value ==> issues[j].issue_id != id
  {
    if issues == [] then None
    else if issues[0].issue_id == id then Some(0)
    else
      match FindIssue(issues[1..], id)
      case None => None
      case Some(k) => Some(k + 1)
  }

  /** POST /api/issues at clock reading `now`. A missing book is refused before anything
      is written. Otherwise the book is marked unavailable first (whatever its current
      flag) and the new issue is saved second; if the save fails validation or hits the
      unique index, the flag stays written and the answer is 400 "Invalid data". */
  function IssueStep(s: LedgerState, req: IssueRequest, now: nat): (r: (LedgerState, Response))
    ensures r.1 == BadRequest("Book not available") <==> req.book_id !in s.books
    ensures req.book_id !in s.books ==> r.0 == s
    ensures req.book_id in s.books ==>
              r.0.books == s.books[req.book_id := s.books[req.book_id].(available := false)]
    ensures r.1.Created? <==>
              req.book_id in s.books && Present(req.book_id) && Present(req.student_id) &&
              req.issue_date.Some? && req.due_date.Some? && !IdTaken(s.issues, IssueIdAt(now))
    ensures r.1.Created? ==>
              r.0.issues == s.issues + [r.1.issue] &&
              r.1.issue == Issue(IssueIdAt(now), req.student_id, req.book_id,
                                 req.issue_date.value, req.due_date.value, None, 0)
    ensures !r.1.Created? ==> r.0.issues == s.issues
    ensures r.1.Created? || r.1.BadRequest?
  {
    if req.book_id !in s.books then (s, BadRequest("Book not available"))
    else
      var books := s.books[req.book_id := s.books[req.book_id].(available := false)];
      var id := IssueIdAt(now);
      var doc := NewIssue(id, req.student_id, req.book_id, req.issue_date, req.due_date, Some(0));
      if doc.None? || IdTaken(s.issues, id) then (LedgerState(s.issues, books), BadRequest("Invalid data"))
      else (LedgerState(s.issues + [doc.value], books), Created(doc.value))
  }

  /** The issue at position k after a return on `returned`: both fields overwritten. */
  function Returned(i: Issue, returned: int): (r: Issue)
    ensures r.return_date == Some(returned) && r.fine == Fine(i.due_date, Some(returned))
    ensures r.(return_date := i.return_date, fine := i.fine) == i
  {
    i.(return_date := Some(returned), fine := Fine(i.due_date, Some(returned)))
  }

  /** PUT /api/issues/:issue_id/return. An unknown id is 404. Otherwise the return date
      and the recomputed fine are written on that issue (a second return is accepted and
      overwrites both), then the issue's book, if it is stored, is marked available.
      A return date that cannot be cast is refused with 400 before anything is written. */
  function ReturnStep(s: LedgerState, issue_id: string, returned: Option<int>): (r: (LedgerState, Response))
    ensures r.1.NotFound? <==> !IdTaken(s.issues, issue_id)
    ensures r.1.BadRequest? <==> IdTaken(s.issues, issue_id) && returned.None?
    ensures !r.1.Updated? ==> r.0 == s
    ensures r.1.Updated? ==>
              var k := FindIssue(s.issues, issue_id).value;
              var old_issue := s.issues[k];
              && r.1.issue == Returned(old_issue, returned.value)
              && r.0.issues == s.issues[k := r.1.issue]
              && r.0.books == if old_issue.book_id in s.books
                              then s.books[old_issue.book_id := s.books[old_issue.book_id].(available := true)]
                              else s.books
  {
    match FindIssue(s.issues, issue_id)
    case None => (s, NotFound("Issue not found"))
    case Some(k) =>
      if returned.None? then (s, BadRequest("Invalid data"))
      else
        var updated := Returned(s.issues[k], returned.value);
        var id := s.issues[k].book_id;
        var books := if id in s.books then s.books[id := s.books[id].(available := true)] else s.books;
        (LedgerState(s.issues[k := updated], books), Updated(updated))
  }

  /** GET /api/issues: every stored issue once, in store order, with its fine recomputed
      from its own dates (so an open issue shows 0) and its book looked up. */
  function Listing(s: LedgerState): (r: seq<IssueView>)
    ensures |r| == |s.issues|
    ensures forall k :: 0 <= k < |r| ==>
              r[k].issue.(fine := s.issues[k].fine) == s.issues[k] &&
              r[k].issue.fine == Fine(s.issues[k].due_date, s.issues[k].return_date) &&
              (IsOpen(s.issues[k]) ==> r[k].issue.fine == 0) &&
              r[k].book == (if s.issues[k].book_id in s.books then Some(s.books[s.issues[k].book_id]) else None)
  {
    seq(|s.issues|, k requires 0 <= k < |s.issues| =>
      var i := s.issues[k];
      IssueView(i.(fine := Fine(i.due_date, i.return_date)),
                if i.book_id in s.books then Some(s.books[i.book_id]) else None))
  }

  /** The backend's issue and book collections, updated in place by the two write handlers. */
  class LoanLedger {
    var issues: seq<Issue>
    var books: map<string, Book>

    function State(): LedgerState
      reads this
    {
      LedgerState(issues, books)
    }

    constructor (books: map<string, Book>)
      ensures issues == [] && this.books == books
    {
      this.issues := [];
      this.books := books;
    }

    /** The POST handler: look the book up, write the book, then save the issue. */
    method IssueBook(req: IssueRequest, now: nat) returns (resp: Response)
      modifies this
      ensures (State(), resp) == IssueStep(old(State()), req, now)
    {
      if req.book_id !in books {
        return BadRequest("Book not available");
      }
      var id := IssueIdAt(now);
      var doc := NewIssue(id, req.student_id, req.book_id, req.issue_date, req.due_date, Some(0));
      books := books[req.book_id := books[req.book_id].(available := false)];
      if doc.None? || IdTaken(issues, id) {
        return BadRequest("Invalid data");
      }
      issues := issues + [doc.value];
      resp := Created(doc.value);
    }

    /** The PUT handler: find the issue, write return date and fine, then free the book. */
    method ReturnBook(issue_id: string, returned: Option<int>) returns (resp: Response)
      modifies this
      ensures (State(), resp) == ReturnStep(old(State()), issue_id, returned)
    {
      var found := FindIssue(issues, issue_id);
      if found.None? {
        return NotFound("Issue not found");
      }
      if returned.None? {
        return BadRequest("Invalid data");
      }
      var k := found.value;
      var updated := Returned(issues[k], returned.value);
      issues := issues[k := updated];
      var id := updated.book_id;
      if id in books {
        books := books[id := books[id].(available := true)];
      }
      resp := Updated(updated);
    }
  }
}

=== FILE: ledger_props.dfy ===
/** What the issue and return handlers keep, and what they do not. */
module LedgerProperties {
  import opened Common
  import opened Models
  import opened FinePolicy
  import opened Ledger

  /** Issue ids are unique per clock reading: two loans get the same id exactly when they
      are opened in the same millisecond. */
  lemma IssueIdsDifferByClock(m: nat, n: nat)
    ensures IssueIdAt(m) == IssueIdAt(n) <==> m == n
  {
    assert IssueIdAt(m)[3..] == Decimal(m) && IssueIdAt(n)[3..] == Decimal(n);
    DecimalInjective(m, n);
  }

  /** Issuing keeps the book map keyed by book_id, issue ids unique and stored fines current. */
  lemma IssuePreservesWellformed(s: LedgerState, req: IssueRequest, now: nat)
    requires Wellformed(s)
    ensures Wellformed(IssueStep(s, req, now).0)
  {
    var r := IssueStep(s, req, now);
    if r.1.Created? {
      var n := |s.issues|;
      forall i | 0 <= i < n ensures r.0.issues[i].issue_id != r.0.issues[n].issue_id {
        assert r.0.issues[i] == s.issues[i];
      }
    }
  }

  /** Returning keeps the book map keyed by book_id, issue ids unique and stored fines current. */
  lemma ReturnPreservesWellformed(s: LedgerState, issue_id: string, returned: Option<int>)
    requires Wellformed(s)
    ensures Wellformed(ReturnStep(s, issue_id, returned).0)
  {
  }

  /** Because the fines stay current, GET shows exactly the stored issues. */
  lemma ListingShowsStoredIssues(s: LedgerState)
    requires FinesCurrent(s.issues)
    ensures forall k :: 0 <= k < |s.issues| ==> Listing(s)[k].issue == s.issues[k]
  {
  }

  /** Returning an issue does not move any issue: ids, and hence lookups, are unchanged. */
  lemma {:induction false} FindIssueAfterUpdate(issues: seq<Issue>, k: nat, i: Issue, id: string)
    requires k < |issues| && i.issue_id == issues[k].issue_id
    ensures FindIssue(issues[k := i], id) == FindIssue(issues, id)
  {
    if issues != [] && k > 0 && issues[0].issue_id != id {
      assert issues[k := i][1..] == issues[1..][k - 1 := i];
      FindIssueAfterUpdate(issues[1..], k - 1, i, id);
    }
  }

  /** A second return of the same issue is accepted: it overwrites the return date and the
      fine of the same issue, and frees the book again. */
  lemma RepeatReturnOverwrites(s: LedgerState, issue_id: string, first: int, second: int)
    requires IdTaken(s.issues, issue_id)
    ensures var s1 := ReturnStep(s, issue_id, Some(first)).0;
            var r2 := ReturnStep(s1, issue_id, Some(second));
            var k := FindIssue(s.issues, issue_id).value;
            && r2.1.Updated?
            && r2.1.issue == Returned(s.issues[k], second)
            && r2.0.issues == s.issues[k := Returned(s.issues[k], second)]
            && (s.issues[k].book_id in s.books ==> r2.0.books[s.issues[k].book_id].available)
  {
    var k := FindIssue(s.issues, issue_id).value;
    var s1 := ReturnStep(s, issue_id, Some(first)).0;
    FindIssueAfterUpdate(s.issues, k, Returned(s.issues[k], first), issue_id);
    assert s1.issues[k] == Returned(s.issues[k], first);
    assert Returned(s1.issues[k], second) == Returned(s.issues[k], second);
  }

  /** The freshly created issue is found at the end of the store. */
  lemma {:induction false} FindAppended(issues: seq<Issue>, i: Issue)
    requires !IdTaken(issues, i.issue_id)
    ensures FindIssue(issues + [i], i.issue_id) == Some(|issues|)
  {
    if issues != [] {
      assert (issues + [i])[1..] == issues[1..] + [i];
      assert !IdTaken(issues[1..], i.issue_id) by {
        forall j | 0 <= j < |issues| - 1 ensures issues[1..][j].issue_id != i.issue_id {
          assert issues[1..][j] == issues[j + 1];
        }
      }
      FindAppended(issues[1..], i);
    }
  }

  /** Issue a book, then return it on or before its due date: the return costs nothing
      and the book is available again. */
  lemma IssueThenReturnOnTime(s: LedgerState, req: IssueRequest, now: nat, returned: int)
    requires IssueStep(s, req, now).1.Created?
    requires returned <= req.due_date.value
    ensures var s1 := IssueStep(s, req, now).0;
            var r2 := ReturnStep(s1, IssueIdAt(now), Some(returned));
            && s1.books[req.book_id].available == false
            && r2.1.Updated? && r2.1.issue.fine == 0 && r2.1.issue.return_date == Some(returned)
            && r2.0.books[req.book_id].available
  {
    var r1 := IssueStep(s, req, now);
    FindAppended(s.issues, r1.1.issue);
  }

  // ---- Availability and open loans: a consequence of careful use, not an invariant ----

  predicate HasOpenLoan(issues: seq<Issue>, book_id: string)
  {
    exists j :: 0 <= j < |issues| && IsOpen(issues[j]) && issues[j].book_id == book_id
  }

  /** A stored book is available exactly when no open issue refers to it. */
  predicate AvailabilityAgrees(s: LedgerState)
  {
    forall id :: id in s.books ==> (s.books[id].available <==> !HasOpenLoan(s.issues, id))
  }

  /** No two open issues share a book. */
  predicate OneOpenLoanPerBook(issues: seq<Issue>)
  {
    forall i, j :: 0 <= i < j < |issues| && IsOpen(issues[i]) && IsOpen(issues[j]) ==>
      issues[i].book_id != issues[j].book_id
  }

  predicate Exclusive(s: LedgerState)
  {
    AvailabilityAgrees(s) && OneOpenLoanPerBook(s.issues)
  }

  /** If callers only issue books that are available and the save succeeds, one open
      loan per book and the availability flags are kept. */
  lemma IssueOfAvailableBookKeepsExclusive(s: LedgerState, req: IssueRequest, now: nat)
    requires Exclusive(s)
    requires req.book_id in s.books && s.books[req.book_id].available
    requires IssueStep(s, req, now).1.Created?
    ensures Exclusive(IssueStep(s, req, now).0)
  {
    var r := IssueStep(s, req, now);
    var n := |s.issues|;
    assert r.0.issues[n].book_id == req.book_id && IsOpen(r.0.issues[n]);
    forall id | id in r.0.books
      ensures r.0.books[id].available <==> !HasOpenLoan(r.0.issues, id)
    {
      if id != req.book_id {
        if HasOpenLoan(r.0.issues, id) {
          var j :| 0 <= j < |r.0.issues| && IsOpen(r.0.issues[j]) && r.0.issues[j].book_id == id;
          assert r.0.issues[j] == s.issues[j];
        }
        if HasOpenLoan(s.issues, id) {
          var j :| 0 <= j < |s.issues| && IsOpen(s.issues[j]) && s.issues[j].book_id == id;
          assert r.0.issues[j] == s.issues[j];
        }
      }
    }
    forall i, j | 0 <= i < j < |r.0.issues| && IsOpen(r.0.issues[i]) && IsOpen(r.0.issues[j])
      ensures r.0.issues[i].book_id != r.0.issues[j].book_id
    {
      assert r.0.issues[i] == s.issues[i];
      if j < n {
        assert r.0.issues[j] == s.issues[j];
      }
    }
  }

  /** If callers only return open issues, one open loan per book and the availability
      flags are kept. */
  lemma ReturnOfOpenIssueKeepsExclusive(s: LedgerState, issue_id: string, returned: int)
    requires Exclusive(s)
    requires IdTaken(s.issues, issue_id) && IsOpen(s.issues[FindIssue(s.issues, issue_id).value])
    ensures Exclusive(ReturnStep(s, issue_id, Some(returned)).0)
  {
    var k := FindIssue(s.issues, issue_id).value;
    var b := s.issues[k].book_id;
    var r := ReturnStep(s, issue_id, Some(returned));
    forall id | id in r.0.books
      ensures r.0.books[id].available <==> !HasOpenLoan(r.0.issues, id)
    {
      if HasOpenLoan(r.0.issues, id) {
        var j :| 0 <= j < |r.0.issues| && IsOpen(r.0.issues[j]) && r.0.issues[j].book_id == id;
        assert j != k && r.0.issues[j] == s.issues[j];
        assert id != b;
      }
      if id != b && HasOpenLoan(s.issues, id) {
        var j :| 0 <= j < |s.issues| && IsOpen(s.issues[j]) && s.issues[j].book_id == id;
        assert r.0.issues[j] == s.issues[j];
      }
    }
    forall i, j | 0 <= i < j < |r.0.issues| && IsOpen(r.0.issues[i]) && IsOpen(r.0.issues[j])
      ensures r.0.issues[i].book_id != r.0.issues[j].book_id
    {
      assert r.0.issues[i] == s.issues[i] && r.0.issues[j] == s.issues[j];
    }
  }

  /** The handler does not check availability: issuing a book that is already out opens
      a second loan on it, so one open loan per book is not an invariant of the code. */
  lemma IssueOfLentBookOpensSecondLoan()
    ensures var s := LedgerState([Issue("ISS1", "S1", "B1", 0, 10, None, 0)],
                                 map["B1" := Book("B1", "T", "C", 1.0, false, "P1", [])]);
            var r := IssueStep(s, IssueRequest("S2", "B1", Some(5), Some(20)), 2);
            && Exclusive(s)
            && r.1.Created?
            && !OneOpenLoanPerBook(r.0.issues)
  {
    var s := LedgerState([Issue("ISS1", "S1", "B1", 0, 10, None, 0)],
                         map["B1" := Book("B1", "T", "C", 1.0, false, "P1", [])]);
    assert IssueIdAt(2) == "ISS2";
    assert IsOpen(s.issues[0]) && s.issues[0].book_id == "B1";
    var r := IssueStep(s, IssueRequest("S2", "B1", Some(5), Some(20)), 2);
    assert r.0.issues[0] == s.issues[0] && IsOpen(r.0.issues[1]) && r.0.issues[1].book_id == "B1";
  }

  /** The book is written before the issue is saved: a save that fails validation leaves
      the book unavailable with no open loan, so the flags no longer agree. */
  lemma FailedSaveStrandsBook()
    ensures var s := LedgerState([], map["B1" := Book("B1", "T", "C", 1.0, true, "P1", [])]);
            var r := IssueStep(s, IssueRequest("S1", "B1", Some(5), None), 2);
            && Exclusive(s)
            && r.1 == BadRequest("Invalid data")
            && !r.0.books["B1"].available && !HasOpenLoan(r.0.issues, "B1")
            && !AvailabilityAgrees(r.0)
  {
  }
}

=== FILE: ledger_scan.dfy ===
/** How the loan ledger and the overdue scan meet: a loan issued with a due date before a
    tick is reported by that tick, and a returned loan is reported no more. */
module LedgerScan {
  import opened Common
  import opened Models
  import opened Ledger
  import opened OverdueScan

  /** A created loan whose due date has passed at a tick is notified to its student's
      room at that tick, whatever the book's availability was, under any title lookup in
      which the loan's book resolves. */
  lemma IssuedLoanIsReportedOnceOverdue(s: LedgerState, req: IssueRequest, now: nat, tick: int,
                                        titles: map<string, string>, rooms: map<string, set<SocketId>>)
    requires IssueStep(s, req, now).1.Created?
    requires req.due_date.value < tick
    requires req.book_id in titles
    ensures var s1 := IssueStep(s, req, now).0;
            exists e :: e in Notices(tick, titles, rooms, s1.issues) &&
              e.room == req.student_id && e.payload.issue_id == IssueIdAt(now) &&
              e.payload.due_date == req.due_date.value &&
              e.payload.book_title == (if titles[req.book_id] == "" then UnknownBook else titles[req.book_id])
  {
    var s1 := IssueStep(s, req, now).0;
    var i := s1.issues[|s1.issues| - 1];
    assert i in s1.issues;
    assert Reported(tick, titles, i);
    NoticesMembership(tick, titles, rooms, s1.issues);
    assert EmitFor(titles, rooms, i) in Notices(tick, titles, rooms, s1.issues);
  }

  /** Once a loan has been returned no later tick notifies it, under any title lookup. */
  lemma ReturnedLoanIsNotReported(s: LedgerState, issue_id: string, returned: int, tick: int,
                                  titles: map<string, string>, rooms: map<string, set<SocketId>>)
    requires UniqueIssueIds(s.issues)
    requires ReturnStep(s, issue_id, Some(returned)).1.Updated?
    ensures var s1 := ReturnStep(s, issue_id, Some(returned)).0;
            forall e :: e in Notices(tick, titles, rooms, s1.issues) ==> e.payload.issue_id != issue_id
  {
    var s1 := ReturnStep(s, issue_id, Some(returned)).0;
    var k := FindIssue(s.issues, issue_id).value;
    NoticesMembership(tick, titles, rooms, s1.issues);
    forall e | e in Notices(tick, titles, rooms, s1.issues)
      ensures e.payload.issue_id != issue_id
    {
      var i :| i in s1.issues && Reported(tick, titles, i) && e == EmitFor(titles, rooms, i);
      var j :| 0 <= j < |s1.issues| && s1.issues[j] == i;
      if j != k {
        assert i == s.issues[j];
      }
    }
  }
}

=== FILE: models.dfy ===
/** The stored records of the library backend: Book and Issue (the loan), plus the
    Author and Publication records that book queries read. Timestamps are integer
    milliseconds since the epoch. */
module Models {
  import opened Common

  datatype Book = Book(
    book_id: string,
    title: string,
    category: string,
    price: real,
    available: bool,
    publication_id: string,
    author_ids: seq<string>)

  datatype Issue = Issue(
    issue_id: string,
    student_id: string,
    book_id: string,
    issue_date: int,
    due_date: int,
    return_date: Option<int>,   // None: the book has not come back (the issue is open)
    fine: int)

  datatype Author = Author(author_id: string, name: string, contact_numbers: seq<string>)

  datatype Publication = Publication(
    publication_id: string,
    name: string,
    address: string,
    contact_numbers: seq<string>)

  /** A required String path rejects both a missing and an empty value. */
  predicate Present(s: string)
  {
    s != ""
  }

  /** What the Book schema's validators demand of a stored book. */
  predicate ValidBook(b: Book)
  {
    Present(b.book_id) && Present(b.title) && Present(b.category) &&
    b.price >= 0.0 && Present(b.publication_id)
  }

  /** What the Issue schema's validators demand of a stored issue. */
  predicate ValidIssue(i: Issue)
  {
    Present(i.issue_id) && Present(i.student_id) && Present(i.book_id)
  }

  predicate IsOpen(i: Issue)
  {
    i.return_date.None?
  }

  /** Building and validating a Book document: `available` defaults to true, `author_ids`
      to the empty list; a missing required field or a negative price fails validation. */
  function NewBook(book_id: string, title: string, category: string, price: Option<real>,
                   available: Option<bool>, publication_id: string,
                   author_ids: Option<seq<string>>): (r: Option<Book>)
    ensures r.Some? <==>
      Present(book_id) && Present(title) && Present(category) && Present(publication_id) &&
      price.Some? && price.value >= 0.0
    ensures r.Some? ==> ValidBook(r.value)
    ensures r.Some? ==> r.value.available == (available.None? || available.value)
    ensures r.Some? ==> r.value.price == price.value
    ensures r.Some? && author_ids.None? ==> r.value.author_ids == []
    ensures r.Some? && author_ids.Some? ==> r.value.author_ids == author_ids.value
    ensures r.Some? ==>
              r.value.book_id == book_id && r.value.title == title &&
              r.value.category == category && r.value.publication_id == publication_id
  {
    if Present(book_id) && Present(title) && Present(category) && Present(publication_id) &&
       price.Some? && price.value >= 0.0
    then
      Some(Book(book_id, title, category, price.value,
                match available case Some(a) => a case None => true,
                publication_id,
                match author_ids case Some(ids) => ids case None => []))
    else None
  }

  /** Building and validating an Issue document: `return_date` starts null (the issue is
      open) and `fine` defaults to 0; a missing student, book or date fails validation. */
  function NewIssue(issue_id: string, student_id: string, book_id: string,
                    issue_date: Option<int>, due_date: Option<int>,
                    fine: Option<int>): (r: Option<Issue>)
    ensures r.Some? <==>
      Present(issue_id) && Present(student_id) && Present(book_id) &&
      issue_date.Some? && due_date.Some?
    ensures r.Some? ==> ValidIssue(r.value) && IsOpen(r.value)
    ensures r.Some? && fine.None? ==> r.value.fine == 0
    ensures r.Some? && fine.Some? ==> r.value.fine == fine.value
    ensures r.Some? ==>
              r.value.issue_id == issue_id && r.value.student_id == student_id &&
              r.value.book_id == book_id && r.value.due_date == due_date.value &&
              r.value.issue_date == issue_date.value
  {
    if Present(issue_id) && Present(student_id) && Present(book_id) &&
       issue_date.Some? && due_date.Some?
    then
      Some(Issue(issue_id, student_id, book_id, issue_date.value, due_date.value, None,
                 match fine case Some(f) => f case None => 0))
    else None
  }
}

=== FILE: navbar.dfy ===
/** The navigation bar's three panel flags and the handlers that toggle them. */
module NavbarPanels {

  datatype Panels = Panels(mobileMenuOpen: bool, notificationsOpen: bool, searchOpen: bool)

  datatype Toggle = MobileMenu | Notifications | Search

  /** The panel flags after one click. */
  function Step(p: Panels, t: Toggle): (r: Panels)
    // each toggle flips its own flag
    ensures t == MobileMenu ==> r.mobileMenuOpen == !p.mobileMenuOpen
    ensures t == Notifications ==> r.notificationsOpen == !p.notificationsOpen
    ensures t == Search ==> r.searchOpen == !p.searchOpen
    // opening one panel closes the ones it excludes
    ensures t == MobileMenu && !p.mobileMenuOpen ==> !r.notificationsOpen && !r.searchOpen
    ensures t == Notifications && !p.notificationsOpen ==> !r.searchOpen && r.mobileMenuOpen == p.mobileMenuOpen
    ensures t == Search && !p.searchOpen ==> !r.notificationsOpen && r.mobileMenuOpen == p.mobileMenuOpen
    // closing one panel leaves the other two alone
    ensures t == MobileMenu && p.mobileMenuOpen ==>
              r.notificationsOpen == p.notificationsOpen && r.searchOpen == p.searchOpen
    ensures t == Notifications && p.notificationsOpen ==>
              r.mobileMenuOpen == p.mobileMenuOpen && r.searchOpen == p.searchOpen
    ensures t == Search && p.searchOpen ==>
              r.mobileMenuOpen == p.mobileMenuOpen && r.notificationsOpen == p.notificationsOpen
  {
    match t
    case MobileMenu =>
      if !p.mobileMenuOpen then Panels(true, false, false) else p.(mobileMenuOpen := false)
    case Notifications =>
      if !p.notificationsOpen then p.(notificationsOpen := true, searchOpen := false)
      else p.(notificationsOpen := false)
    case Search =>
      if !p.searchOpen then p.(searchOpen := true, notificationsOpen := false)
      else p.(searchOpen := false)
  }

  /** The flags after a sequence of clicks. */
  function Run(p: Panels, ts: seq<Toggle>): Panels
    decreases |ts|
  {
    if ts == [] then p else Run(Step(p, ts[0]), ts[1..])
  }

  /** Notifications and search are never open together. */
  predicate Exclusive(p: Panels)
  {
    !(p.notificationsOpen && p.searchOpen)
  }

  /** Starting from the initial all-closed flags, no sequence of clicks opens notifications
      and search together. */
  lemma {:induction false} RunKeepsExclusive(p: Panels, ts: seq<Toggle>)
    requires Exclusive(p)
    ensures Exclusive(Run(p, ts))
    decreases |ts|
  {
    if ts != [] {
      RunKeepsExclusive(Step(p, ts[0]), ts[1..]);
    }
  }

  lemma NeverBothOpen(ts: seq<Toggle>)
    ensures Exclusive(Run(Panels(false, false, false), ts))
  {
    RunKeepsExclusive(Panels(false, false, false), ts);
  }

  /** The component's state: three flags that the handlers set. */
  class Navbar {
    var mobileMenuOpen: bool
    var notificationsOpen: bool
    var searchOpen: bool

    function State(): Panels
      reads this
    {
      Panels(mobileMenuOpen, notificationsOpen, searchOpen)
    }

    constructor ()
      ensures State() == Panels(false, false, false)
    {
      mobileMenuOpen, notificationsOpen, searchOpen := false, false, false;
    }

    method ToggleMobileMenu()
      modifies this
      ensures State() == Step(old(State()), MobileMenu)
    {
      var wasOpen := mobileMenuOpen;
      mobileMenuOpen := !wasOpen;
      if !wasOpen {
        notificationsOpen := false;
        searchOpen := false;
      }
    }

    method ToggleNotifications()
      modifies this
      ensures State() == Step(old(State()), Notifications)
      ensures Exclusive(State())
    {
      var wasOpen := notificationsOpen;
      notificationsOpen := !wasOpen;
      if !wasOpen {
        searchOpen := false;
      }
    }

    method ToggleSearch()
      modifies this
      ensures State() == Step(old(State()), Search)
      ensures Exclusive(State())
    {
      var wasOpen := searchOpen;
      searchOpen := !wasOpen;
      if !wasOpen {
        notificationsOpen := false;
      }
    }
  }
}

=== FILE: overdue.dfy ===
/** The overdue scan run by the backend's one-minute timer, and the socket rooms it emits
    to. One call of ScanCycle is one timer tick; emits are recorded in an outbox together
    with the sockets that were in the addressed room at that moment. */
module OverdueScan {
  import opened Common
  import opened Models
  import opened FinePolicy

  type SocketId = string

  datatype Notification = Notification(issue_id: string, book_title: string, due_date: int)

  datatype Emit = Emit(room: string, event: string, payload: Notification, recipients: set<SocketId>)

  const NotificationEvent: string := "notification"
  const UnknownBook: string := "Unknown Book"

  /** The query of one tick: due strictly before now and not returned. */
  predicate IsOverdue(now: int, i: Issue)
    ensures IsOverdue(now, i) <==> IsOpen(i) && Fine(i.due_date, Some(now)) >= 1
  {
    i.due_date < now && IsOpen(i)
  }

  /** An overdue issue whose book resolves (book_id -> title) is reported; others are skipped. */
  predicate Reported(now: int, titles: map<string, string>, i: Issue)
    ensures Reported(now, titles, i) ==> IsOpen(i) && Fine(i.due_date, Some(now)) >= 1
    ensures i.book_id !in titles ==> !Reported(now, titles, i)
  {
    IsOverdue(now, i) && i.book_id in titles
  }

  /** The sockets currently in a room. */
  function Members(rooms: map<string, set<SocketId>>, room: string): set<SocketId>
  {
    if room in rooms then rooms[room] else {}
  }

  /** The emit for a reported issue: to the room named by its student, carrying its id,
      the book's title ("Unknown Book" for an empty title) and its due date. */
  function EmitFor(titles: map<string, string>, rooms: map<string, set<SocketId>>, i: Issue): (e: Emit)
    requires i.book_id in titles
    ensures e.room == i.student_id && e.event == NotificationEvent
    ensures e.recipients == Members(rooms, i.student_id)
    ensures e.payload.issue_id == i.issue_id && e.payload.due_date == i.due_date
    ensures e.payload.book_title == (if titles[i.book_id] == "" then UnknownBook else titles[i.book_id])
    ensures e.payload.book_title != ""
  {
    var title := titles[i.book_id];
    Emit(i.student_id, NotificationEvent,
         Notification(i.issue_id, if title == "" then UnknownBook else title, i.due_date),
         Members(rooms, i.student_id))
  }

  /** All emits of one tick over the issues in query order. */
  function Notices(now: int, titles: map<string, string>, rooms: map<string, set<SocketId>>,
                   issues: seq<Issue>): (r: seq<Emit>)
    ensures |r| <= |issues|
    ensures forall k :: 0 <= k < |r| ==>
              r[k].event == NotificationEvent && r[k].recipients == Members(rooms, r[k].room)
  {
    if issues == [] then []
    else
      var last := issues[|issues| - 1];
      Notices(now, titles, rooms, issues[..|issues| - 1]) +
        (if Reported(now, titles, last) then [EmitFor(titles, rooms, last)] else [])
  }

  /** The socket.io server state the scan needs: connected sockets, room membership and
      everything emitted so far. */
  class SocketHub {
    var connected: set<SocketId>
    var rooms: map<string, set<SocketId>>
    var outbox: seq<Emit>

    /** Only connected sockets are in rooms. */
    ghost predicate Valid()
      reads this
    {
      forall room :: room in rooms ==> rooms[room] <= connected
    }

    constructor ()
      ensures Valid() && connected == {} && rooms == map[] && outbox == []
    {
      connected, rooms, outbox := {}, map[], [];
    }

    /** A new connection; socket.io puts every socket in a room named by its own id. */
    method Connect(socket: SocketId)
      requires Valid()
      modifies this
      ensures Valid()
      ensures connected == old(connected) + {socket}
      ensures rooms == old(rooms)[socket := Members(old(rooms), socket) + {socket}]
      ensures outbox == old(outbox)
    {
      connected := connected + {socket};
      rooms := rooms[socket := Members(rooms, socket) + {socket}];
    }

    /** The `join` handler: the socket enters the room named by the student id it sent. */
    method Join(socket: SocketId, student_id: string)
      requires Valid() && socket in connected
      modifies this
      ensures Valid()
      ensures socket in Members(rooms, student_id)
      ensures rooms == old(rooms)[student_id := Members(old(rooms), student_id) + {socket}]
      ensures connected == old(connected) && outbox == old(outbox)
    {
      rooms := rooms[student_id := Members(rooms, student_id) + {socket}];
    }

    /** A disconnecting socket leaves every room it was in. */
    method Disconnect(socket: SocketId)
      requires Valid()
      modifies this
      ensures Valid()
      ensures connected == old(connected) - {socket}
      ensures rooms.Keys == old(rooms).Keys
      ensures forall room :: room in rooms ==> rooms[room] == old(rooms)[room] - {socket}
      ensures outbox == old(outbox)
    {
      connected := connected - {socket};
      rooms := map room | room in rooms :: rooms[room] - {socket};
    }

    /** One tick of the timer at time `now`, over the issues in store order and the
        resolution of book ids to titles. Nothing is remembered between ticks. */
    method ScanCycle(now: int, titles: map<string, string>, issues: seq<Issue>)
      requires Valid()
      modifies this
      ensures Valid()
      ensures outbox == old(outbox) + Notices(now, titles, rooms, issues)
      ensures rooms == old(rooms) && connected == old(connected)
      ensures forall k :: |old(outbox)| <= k < |outbox| ==> outbox[k].recipients <= connected
    {
      var k := 0;
      while k < |issues|
        invariant 0 <= k <= |issues|
        invariant rooms == old(rooms) && connected == old(connected)
        invariant outbox == old(outbox) + Notices(now, titles, rooms, issues[..k])
      {
        var issue := issues[k];
        assert issues[..k + 1][..k] == issues[..k];
        k := k + 1;
        if !IsOverdue(now, issue) {
          continue;
        }
        if issue.book_id !in titles {
          continue;
        }
        var title := titles[issue.book_id];
        var notification := Notification(issue.issue_id, if title == "" then UnknownBook else title, issue.due_date);
        outbox := outbox + [Emit(issue.student_id, NotificationEvent, notification, Members(rooms, issue.student_id))];
      }
      assert issues[..|issues|] == issues;
    }
  }

  /** Emits of a concatenation are the emits of each part in order: a skipped issue does not
      stop later issues from being reported. */
  lemma {:induction false} NoticesConcat(now: int, titles: map<string, string>,
                                         rooms: map<string, set<SocketId>>, a: seq<Issue>, b: seq<Issue>)
    ensures Notices(now, titles, rooms, a + b) == Notices(now, titles, rooms, a) + Notices(now, titles, rooms, b)
    decreases |b|
  {
    if b == [] {
      assert a + b == a;
    } else {
      var b' := b[..|b| - 1];
      assert (a + b)[..|a + b| - 1] == a + b';
      assert (a + b)[|a + b| - 1] == b[|b| - 1];
      NoticesConcat(now, titles, rooms, a, b');
    }
  }

  /** An emit happens for an issue exactly when it is reported, and every emit is the
      emit of some reported issue of the tick. */
  lemma {:induction false} NoticesMembership(now: int, titles: map<string, string>,
                                             rooms: map<string, set<SocketId>>, issues: seq<Issue>)
    ensures forall i :: i in issues && Reported(now, titles, i) ==>
              EmitFor(titles, rooms, i) in Notices(now, titles, rooms, issues)
    ensures forall e :: e in Notices(now, titles, rooms, issues) ==>
              exists i :: i in issues && Reported(now, titles, i) && e == EmitFor(titles, rooms, i)
  {
    if issues != [] {
      var init := issues[..|issues| - 1];
      NoticesMembership(now, titles, rooms, init);
      assert issues == init + [issues[|issues| - 1]];
      forall i | i in issues ensures i in init || i == issues[|issues| - 1] {
      }
    }
  }

  /** A single issue gets exactly one emit when it is reported and none otherwise. */
  lemma NoticesSingle(now: int, titles: map<string, string>, rooms: map<string, set<SocketId>>, i: Issue)
    ensures Notices(now, titles, rooms, [i]) ==
              if Reported(now, titles, i) then [EmitFor(titles, rooms, i)] else []
  {
    assert [i][..0] == [];
  }

  /** Level-triggered: an issue reported by one tick is reported again by every later tick
      while it stays open, unreturned and resolvable. */
  lemma ReportedAgainLater(now1: int, now2: int, titles: map<string, string>,
                           rooms: map<string, set<SocketId>>, issues: seq<Issue>, e: Emit)
    requires now1 <= now2
    requires e in Notices(now1, titles, rooms, issues)
    ensures e in Notices(now2, titles, rooms, issues)
  {
    NoticesMembership(now1, titles, rooms, issues);
    NoticesMembership(now2, titles, rooms, issues);
  }

  /** A socket in the room of an overdue issue's student receives that issue's notification. */
  lemma JoinedSocketReceives(now: int, titles: map<string, string>, rooms: map<string, set<SocketId>>,
                             issues: seq<Issue>, i: Issue, socket: SocketId)
    requires i in issues && Reported(now, titles, i)
    requires socket in Members(rooms, i.student_id)
    ensures exists e :: e in Notices(now, titles, rooms, issues) &&
              e.payload.issue_id == i.issue_id && socket in e.recipients
  {
    NoticesMembership(now, titles, rooms, issues);
    var e := EmitFor(titles, rooms, i);
    assert e in Notices(now, titles, rooms, issues);
  }
}
